=== FILE: README.md ===
# gbs admission and identity layer, in Dafny

gbs is an HTTP front-end to a ledger whose business rules live in SQL stored
procedures. What the Go code itself decides is who gets in. This project
models that layer as immutable state and pure functions, and proves
properties about it.

- **Login lockout.** A per-username record of failed attempts. It locks the
  username for a configured duration once the failures reach a maximum. A
  janitor sweep forgets expired records (`LoginAttempts`).
- **authenticate.** The credential endpoint shared by login and
  registration. It checks the method and the body, then the lockout, then
  the credential function. It then records a failure or clears the record
  (`Authenticate`).
- **Rate limiter.** A fixed-window rate limiter per remote host, kept in a
  cache that may forget entries (`RateLimiter`).
- **Bearer-token middleware.** It reads the Authorization header, strips one
  `Bearer ` prefix, verifies the token and passes the user id on
  (`AuthMiddleware`).
- **Credential validation and authentication flows.** Registration, login,
  password change, access-token refresh, and reading the user id back out of
  an access token (`Auth`). The store's procedures, bcrypt and the JWT
  library are collaborators passed in as functions. Each flow returns the
  collaborator calls it made, so "no store call" and "which user's tokens
  were dropped" can be stated.
- **Request helpers.** Integer query parameters, the 405 response and
  pagination (`Utils`), with Go's `strconv.Atoi` and 64-bit wrap-around
  (`Strconv`).
- **Handlers.** The order in which each handler checks method, parameters
  or body, caller identity and the store, and the status each failed check
  gives (`Handlers`).
- **Server composition.** The one-way latch that keeps business routes shut
  until every default account's password is changed, and the route table
  that fixes which middleware wraps which handler (`Server`).

Clock values are integers in nanoseconds (`Common.Time`). Go's `Before` is
`<` and `After` is `>`. Go's zero `time.Time` is `LoginAttempts.ZeroTime`.
Process-wide state becomes an explicit argument and result: the lockout
table, the rate-limit cache and the defaults latch. The clock reading is an
argument too.

## Model

| member | source | states |
|---|---|---|
| LoginAttempts.CheckLoginAttempt | internal/transport/login_attempts.go:11-20 | A username is refused exactly when it has a record and the clock is strictly before that record's lock end; an unknown username is always allowed |
| LoginAttempts.RegisterFailedAttempt | internal/transport/login_attempts.go:22-34 | The username's count rises by exactly one from its record, or from zero with no record; the lock end becomes now plus the lockout exactly when the new count reaches the maximum and is otherwise kept (the zero time for a new record); every other username's record is untouched |
| LoginAttempts.ResetLoginAttempts | internal/transport/login_attempts.go:36-38 | The username's record is gone and every other record is kept as it was |
| LoginAttempts.CleanupExpiredAttempts | internal/transport/rate_limiter.go:23-33 | The sweep keeps exactly the records whose lock end is not before the sweep time, unchanged, and drops every other record |
| LoginAttempts.FailuresFromScratch | internal/transport/login_attempts.go:22-34 | After k failures from no record the count is k, and the lock end is the last failure plus the lockout if k reached the maximum, else the zero time |
| LoginAttempts.LockoutWindow | internal/transport/login_attempts.go:11-34 | Starting with no record, the maximum number of failures with the last at time t refuses every attempt before t plus the lockout and allows every attempt from then on |
| LoginAttempts.BelowThresholdNeverLocks | internal/transport/login_attempts.go:22-34 | Fewer failures than the maximum, starting from no record, never lock the username |
| LoginAttempts.ExpiredRecordRelocks | internal/transport/login_attempts.go:25-31 | An expired record that was neither reset nor swept still has a count at or above the maximum, so one further failure locks it again at once |
| LoginAttempts.ResetAllows | internal/transport/login_attempts.go:36-38 | After a reset the username is allowed at any time, and every other username gets the same answer as before |
| LoginAttempts.FailureIsolated | internal/transport/login_attempts.go:22-34 | A failure for one username changes no other username's answer |
| LoginAttempts.CleanupPreservesCheck | internal/transport/rate_limiter.go:23-33 | From the sweep's time on, every username gets the same lockout answer with or without the sweep |
| LoginAttempts.CleanupDropsNeverLocked | internal/transport/rate_limiter.go:23-33 | A record that failed but never reached the maximum keeps the zero time as its lock end, so any sweep removes it |
| RateLimiter.Step | internal/transport/rate_limiter.go:62-80 | An unknown source, or a known one whose window has ended, gets a fresh window counting one request and is admitted; otherwise the count rises by one and is kept even when the request is rejected; a request is admitted exactly when the new count is within the ceiling, and a rejection carries the whole seconds left in the window |
| RateLimiter.Middleware | internal/transport/rate_limiter.go:15-85 | With the one-minute window: an address whose host cannot be split off gives 500 "Failed to determine IP" with the cache unchanged and the wrapped handler not called; otherwise the source's entry is replaced by the step's entry, the handler is called exactly on admission, and a rejection gives 429 "Too many requests" with the hint |
| RateLimiter.MiddlewareIsolated | internal/transport/rate_limiter.go:62-80 | A request from one source leaves every other source's entry as it was |
| RateLimiter.EvictionStartsFresh | internal/transport/rate_limiter.go:62-69 | If the cache has forgotten a source, that source's next request opens a fresh one-minute window with count one and is admitted, whatever its old count and whatever the ceiling |
| RateLimiter.StepKeepsHorizon | internal/transport/rate_limiter.go:62-80 | Under a clock that never goes backwards, a stored window never ends more than one window length after the current clock reading |
| RateLimiter.Run | internal/transport/rate_limiter.go:50-85 | Over a run of requests from one source, each request's verdict is the step applied to the entry left by all requests before it |
| RateLimiter.RetryAfterBounded | internal/transport/rate_limiter.go:74-77 | The Retry-After hint of a rejection lies between zero and the window length in seconds |
| RateLimiter.RunInsideWindow | internal/transport/rate_limiter.go:74-80 | Inside an open window that already holds k requests, further request i is the (k+i+1)-th of the window and is admitted exactly when that is within the ceiling |
| RateLimiter.FreshWindowAdmitsExactlyMax | internal/transport/rate_limiter.go:62-80 | With a ceiling of at least one, a window opened by the first request admits exactly the first ceiling-many requests that fall inside it and rejects the rest |
| RateLimiter.FirstOfWindowAlwaysAdmitted | internal/transport/rate_limiter.go:70-73 | The first request of a window is admitted even when the ceiling is zero or negative |
| Strconv.Wrap64 | internal/transport/utils.go:40 | Go's int arithmetic: the result is a 64-bit value congruent to the mathematical result modulo 2^64, equal to it when it fits |
| Strconv.Atoi | internal/transport/utils.go:21 | A parsed value fits in 64 bits; the empty string is an error; a parsed string is an optional sign followed only by decimal digits, and a negative value has a leading minus |
| Strconv.AtoiItoa | internal/transport/utils.go:21 | Every 64-bit value's decimal rendering parses back to that value |
| Strconv.AtoiRejectsOutOfRange | internal/transport/utils.go:21 | The decimal rendering of a value outside 64 bits is a range error, not a wrapped value |
| Utils.ParseQueryInt | internal/transport/utils.go:16-22 | A missing or empty parameter is an error of its own; any other value is whatever Atoi makes of it, so a success is a 64-bit value of a parameter that is present |
| Utils.ParseQueryIntRoundTrip | internal/transport/utils.go:16-22 | A 64-bit value placed in the query as its decimal rendering comes back unchanged |
| Utils.InvalidMethod | internal/transport/utils.go:31-33 | The response is a 405 whose message is "Invalid method: " followed by exactly the refused method |
| Utils.InvalidMethodInjective | internal/transport/utils.go:31-33 | Two different refused methods get two different responses |
| Utils.ParsePage | internal/transport/utils.go:35-42 | The limit is always 20; the offset is a non-negative multiple of 20, page minus one pages in for page 1 or more, and zero for every page below 1 |
| Utils.ConsecutivePagesAdjacent | internal/transport/utils.go:39-40 | For page p of 1 or more, page p ends where page p+1 begins, and no row is on both |
| Utils.EveryRowOnOnePage | internal/transport/utils.go:39-40 | Every non-negative row lies on exactly one page numbered 1 or more |
| Utils.ParsePageAsWritten | internal/transport/utils.go:35-42 | parsePage in 64-bit arithmetic: the offset always fits in 64 bits, and it agrees with the intended page arithmetic whenever the product does not overflow |
| Utils.ParsePageOverflow | internal/transport/utils.go:40 | The largest page the query parser accepts gets offset -40 as written, where the intended offset is positive |
| Authenticate.AuthenticateAsWritten | internal/transport/handler.go:460-491 | authenticate as written: 405 and 400 with the table unchanged; a locked username gives 401 "Too many attempts, try again later" without the credential function; an error records one failure and gives 401 "Invalid credentials"; no error with an empty token records one failure and then panics; a success deletes the record and returns both tokens; only the submitted username's record can change |
| Authenticate.Authenticate | internal/transport/handler.go:460-491 | A non-POST gives 405 and a bad body 400, both with the table unchanged; a locked username gives 401 "Too many attempts, try again later" with the table unchanged and the credential function not called; an error or an empty token records exactly one failure and gives 401 "Invalid credentials"; a success deletes the username's record and returns both tokens; no other username's record changes |
| Authenticate.EmptyTokenPanics | internal/transport/handler.go:479-485 | A credential function that returns no error and an empty refresh token gets a failure recorded, and then the written handler panics where the intended one answers 401 |
| Authenticate.AgreeOnWellBehavedAuth | internal/transport/handler.go:479-485 | When the credential function never pairs a nil error with an empty token, the written and the intended handler agree on every request |
| Authenticate.LockoutScenario | internal/transport/handler.go:475-486 | Three wrong passwords with a maximum of 3 and a lockout of 60 s refuse the fourth attempt without consulting credentials; 61 s after the third failure the right password succeeds and the record is gone |
| AuthMiddleware.TrimPrefix | internal/transport/auth_middleware.go:26 | One leading prefix is removed if present, and a string without that exact prefix passes unchanged |
| AuthMiddleware.TrimBearer | internal/transport/auth_middleware.go:26 | Prefixing "Bearer " and trimming it give back the token |
| AuthMiddleware.TrimOnlyOnce | internal/transport/auth_middleware.go:26 | Only one prefix is removed, and matching is case-sensitive: "bearer " stays |
| AuthMiddleware.Decide | internal/transport/auth_middleware.go:19-36 | An empty header gives 401 "Missing Authorization header"; otherwise the header minus one "Bearer " is verified, a verifier error gives 401 "Unauthorized", and a success forwards exactly the verified user id to the wrapped handler |
| AuthMiddleware.MissingHeaderIgnoresVerifier | internal/transport/auth_middleware.go:19-32 | A missing header is decided without the verifier, and its rejection differs from the bad-token rejection |
| AuthMiddleware.BearerOfIssuedToken | internal/transport/auth_middleware.go:26-36 | A client that sends "Bearer " and an access token issued for id reaches the wrapped handler as id until the token's expiry second |
| AuthMiddleware.Authorize | internal/transport/auth_middleware.go:19-36 | With GetUserIDFromJWT as verifier: an empty header gives 401 "Missing Authorization header"; otherwise the request is forwarded exactly when the trimmed token verifies, as the verified id, and refused with 401 "Unauthorized" otherwise |
| Auth.PatternClassIsPrintableAscii | internal/auth/auth.go:153 | The validators' bracket expression, with ")-_" read as a range, is exactly printable ASCII without the space |
| Auth.ValidateCredential | internal/auth/auth.go:151-165 | A credential is accepted exactly when it is non-empty, every character is printable non-space ASCII, and its length is within the inclusive bounds |
| Auth.ValidateUsername | internal/auth/auth.go:151-157 | A username is accepted exactly when it matches the pattern and its length is within the inclusive login bounds |
| Auth.ValidatePassword | internal/auth/auth.go:159-165 | A password is accepted exactly when it matches the pattern and its length is within the inclusive password bounds |
| Auth.ValidatorsRefuseOutsideClass | internal/auth/auth.go:151-165 | A space, a control character or a non-ASCII character anywhere makes both validators refuse, whatever the bounds |
| Auth.JwtClaims | internal/auth/auth.go:88-91 | An access token carries exactly the claims user_id and exp; user_id is the id, and exp is the second in which now plus the lifespan falls |
| Auth.GenerateJwt | internal/auth/auth.go:83-94 | Issuing an access token signs exactly those claims and makes no other call |
| Auth.GenerateRefreshToken | internal/auth/auth.go:96-106 | The store is asked for a refresh token for the id that expires one refresh lifespan from now |
| Auth.IssueTokens | internal/auth/auth.go:30-38 | Both tokens are issued exactly when signing and the store's refresh token both succeed; the refresh token is not attempted once signing has failed |
| Auth.RepositoryRegisterUser | internal/repository/repository.go:62-65 | A new user id is never 0; the procedure's 0 is the error "user already exists" |
| Auth.RegisterUser | internal/auth/auth.go:15-39 | An invalid username, and then an invalid password, fail with no collaborator call; with valid credentials, a hash and a store registration that succeed, the result is exactly the token issue for the new id, after the hash and the registration calls; tokens are issued in no other case |
| Auth.Login | internal/auth/auth.go:41-61 | The store lookup comes first; tokens are issued only when the store knows the user, the stored hash is non-empty and it matches; any other case is an error |
| Auth.ChangePassword | internal/auth/auth.go:63-81 | An invalid password fails with no call; a failed hash reads as an invalid password; no invalidation without a successful store update; a failed invalidation is an error though the password was written; the change succeeds exactly when validation, hash, update and the target's invalidation all succeed, with those three calls in order |
| Auth.ChangePasswordInvalidatesTarget | internal/auth/auth.go:71-80 | A successful change drops the target's refresh tokens and never the initiator's when the two differ |
| Auth.RefreshJwt | internal/auth/auth.go:108-121 | The store lookup comes first; a store error or the -1 sentinel refuses the refresh with no token; any other id gets exactly the signer's answer for that id's claims, after the lookup and one signing call |
| Auth.GetUserIdFromJwt | internal/auth/auth.go:123-149 | An id comes out exactly for a parsable HMAC-signed token with a valid signature, numeric time claims that accept now (not at or after a non-zero exp second, not before a non-zero nbf second; a zero claim sets no limit), and a numeric user_id, and it is that user_id; every other token is an error |
| Auth.IssuedTokenRoundTrip | internal/auth/auth.go:83-149 | A token issued for id verifies to id strictly before its expiry second and is refused at and after it; a token whose expiry second is the epoch itself never expires, as the library reads a zero exp as none |
| Auth.ZeroTimeClaimsSetNoLimit | internal/auth/auth.go:123-149 | A signed token with exp 0 and nbf 0 or absent verifies to its user_id at every instant |
| Auth.RefreshedTokenRoundTrip | internal/auth/auth.go:108-149 | A refreshed access token verifies to the id the store bound to the refresh token |
| Auth.RegisterIssuesVerifiableTokens | internal/auth/auth.go:15-39 | The access token a successful registration returns verifies, until its expiry second, to the non-zero id the store gave the new user |
| Auth.LoginIssuesVerifiableTokens | internal/auth/auth.go:41-61 | The access token a successful login returns verifies, until its expiry second, to the id the store holds for that login |
| Handlers.Read | internal/transport/handlers.go:120-127 | A read makes exactly the given ledger call; the ledger's data becomes a 200 with that data and a ledger error becomes the handler's fixed status and message |
| Handlers.Write | internal/transport/handlers.go:391-398 | A write makes exactly the given ledger call; a store error gives 400 with the store's message and a success an empty 200 |
| Handlers.GetTransactionsHistory | internal/transport/handlers.go:87-128 | The checks run in order: method (405), then id (400), then page (400), then identity (401); the ledger is called exactly when all pass, as the caller, for the target id, with the limit and offset of the page, and its answer is mapped as a read |
| Handlers.HistoryPageWindow | internal/transport/handlers.go:97-120 | A well-formed request for page p reads rows (p-1)*20 to p*20 of the target's history on behalf of the caller, and the 64-bit offset of the source is the same whenever (p-1)*20 fits |
| Handlers.GetTransactionCount | internal/transport/handlers.go:144-177 | The checks run in order: method, then id, then identity; the ledger is called exactly when all pass, as the caller, for the target id |
| Handlers.GetUserPermissions | internal/transport/handlers.go:193-219 | The checks run in order: method (405), then id (400); the store is asked for exactly that id's permissions, its answer becomes the 200 body, and a store failure is a 500 |
| Handlers.GetUserId | internal/transport/handlers.go:235-260 | The checks run in order: method (405), then a non-empty username (400); the store is asked for exactly that username, its answer becomes the 200 body, and a failure is a 401 "User not found" |
| Handlers.GetUsername | internal/transport/handlers.go:276-301 | The checks run in order: method (405), then id (400); the store is asked for exactly that id, its answer becomes the 200 body, and a failure is a 401 "User not found" |
| Handlers.IdentityReadsIgnoreCaller | internal/transport/handlers.go:193-301 | The permissions, user-id and username reads give the same answer whoever the caller is, or with no caller at all |
| Handlers.GetBalance | internal/transport/handlers.go:317-350 | The checks run in order: method, then identity, then id; the ledger is called exactly when all pass, as the caller, for the target id |
| Handlers.IdentityBeforeIdOnlyInGetBalance | internal/transport/handlers.go:327-339 | Without an identity and with a bad id, GetBalance answers 401 while GetTransactionCount answers 400 |
| Handlers.Transaction | internal/transport/handlers.go:366-398 | The checks run in order: method, then identity, then body; the transfer is made exactly when all pass, naming the caller in the context as initiator |
| Handlers.PrintMoney | internal/transport/handlers.go:414-446 | The checks run in order: method, then identity, then body; the issue is made exactly when all pass, naming the caller in the context as initiator |
| Handlers.ModifyPermission | internal/transport/handlers.go:505-543 | The checks run in order: method (405), then identity (401), then body (400); a well-formed request always reaches the ledger, granting exactly when enabled and revoking otherwise, for the body's user and permission, as the caller; a store error becomes a 400 with its message and a success an empty 200 |
| Handlers.WritesActAsCaller | internal/transport/handlers.go:376-391 | Every ledger write is made on behalf of the identity in the context, and nothing in the body chooses the initiator |
| Handlers.ChangePassword | internal/transport/handlers.go:559-591 | The checks run in order: method, then identity, then body; the change runs with the caller as initiator and the body's user as target, and its error message goes back as a 400 |
| Handlers.RefreshJwt | internal/transport/handlers.go:462-489 | A refresh error gives 401 "Invalid token", a token gives 200 with it, and the handler panics exactly when the flow returns no error and an empty token |
| Handlers.Login | internal/transport/handlers.go:30-33 | Login is authenticate with the login flow: 405 for another method, 400 for an undecodable body, 401 "Too many attempts" for a locked username without a credential check, one recorded failure and 401 "Invalid credentials" for a password the store does not accept or tokens that are not issued, and for an accepted password with issued tokens a 200 carrying exactly those tokens with the username's record cleared |
| Handlers.Register | internal/transport/handlers.go:50-70 | With direct registration on, registration goes straight to authenticate with no identity or permission check; with it off, no identity gives 401 with no permission check, and the caller's permission decides between 403 "Registration not allowed" and authenticate |
| Handlers.FlowsNeverPairNilWithEmpty | internal/auth/auth.go:15-61 | When neither the signer nor the store returns an empty token, the login and registration flows never return no error with an empty token |
| Handlers.AuthEndpointsAgreeWithWritten | internal/transport/handler.go:479-485 | When neither the signer nor the store returns an empty token, Login and Register answer exactly as the written authenticate does |
| Handlers.LockoutSharedByRegisterAndLogin | internal/transport/handler.go:475-486 | A failed registration at the last allowed count locks the username out of login, and that login is refused without a credential check |
| Server.TryAccounts | internal/transport/server.go:14-28 | Accounts are tried in order up to and including the first that still logs in with the default password; the verdict is true exactly when none does |
| Server.LoginStillDefault | internal/transport/server.go:15-26 | The probe is the real login flow: an account counts as still default exactly when logging in with "CHANGE_ME" returns no error |
| Server.DefaultsChangedByLogin | internal/transport/server.go:14-28 | With the login probe, the defaults count as changed exactly when all four default logins fail, which they do when the store accepts the default password for none of them |
| Server.DefaultsAreChanged | internal/transport/server.go:14-28 | The defaults count as changed exactly when none of adm, fees, registration and money_printer logs in with "CHANGE_ME"; the accounts tried stop at the first that does |
| Server.StopsAtAdm | internal/transport/server.go:15-17 | If adm still has the default password, no other account is tried |
| Server.CheckDefaults | internal/transport/server.go:30-43 | With the latch set, the request goes through with no check; otherwise a default account that still logs in gives 403 and leaves the latch unset, and a check in which all four logins fail sets the latch and lets the request through; the request goes through exactly when the latch ends up set |
| Server.LatchRun | internal/transport/server.go:30-43 | Over a run of requests, each latch value is the defaults check applied to the latch left by the request before it |
| Server.LatchMonotone | internal/transport/server.go:32-41 | Across any run of requests the latch, once set, is never unset |
| Server.ChangedDefaultsOpenGate | internal/transport/server.go:36-41 | Once a request finds the defaults changed, the latch is set after it and after every later request |
| Server.Route | internal/transport/server.go:49-64 | The layers are only the token check and the defaults gate, so the rate limiter wraps no route; every route other than /login and /register starts with the token check; only /login and /changePassword skip the defaults gate |
| Server.RunLayers | internal/transport/server.go:30-64 | The layers can only set the latch, and only after a passing check; a handler behind the defaults gate runs only with the latch set; with the defaults changed the gate never answers 403, and without a token check the handler is reached; a handler behind the token check always has an identity |
| Server.Serve | internal/transport/server.go:45-64 | An unknown path is not found and leaves the latch; the latch is never unset and is set only by a passing check; a reached handler is the route's endpoint, and every endpoint other than /login and /register is reached only with an identity |
| Server.LoginUnwrapped | internal/transport/server.go:49 | Every /login request reaches the handler, without an identity, and leaves the latch as it was |
| Server.ChangePasswordSkipsDefaults | internal/transport/server.go:50 | A valid token reaches the password-change handler as its user, whatever the latch and the default accounts |
| Server.BusinessRouteNeedsHeader | internal/transport/server.go:57-64 | A business request without an Authorization header is refused with 401 before the defaults check, so the latch does not move |
| Server.BusinessRouteBlockedByDefaults | internal/transport/server.go:57-64 | With a valid token, an unset latch and a default password still in place, a business request gets 403 and the latch stays unset |
| Server.BusinessRouteOpensOnChangedDefaults | internal/transport/server.go:57-64 | With a valid token and the defaults changed, a business request reaches its handler as the token's user and leaves the latch set |
| Server.RegisterRouteIdentity | internal/transport/server.go:52-56 | Without direct registration the Register handler always runs with an identity, so its own 401 branch cannot be reached through the route; with direct registration it runs without one |
| Server.UnroutedHandlers | internal/transport/server.go:45-70 | The route table serves exactly the eleven registered paths, each endpoint from its own path only; neither the refresh path nor the username path is among them |

## Left out

- Concurrency. The model is sequential and leaves out `sync.Map`, the rate limiter's mutex (held across the wrapped handler), the atomic latch and the janitor goroutine.
  - The load-increment-store in `registerFailedAttempt` is not atomic, so concurrent failures can lose updates. The model says nothing about that.
  - Two racing requests may both run the default-password check. That is harmless because the latch only ever gets set.
- The janitor's five-minute loop and `Init`. `LoginAttempts.CleanupExpiredAttempts` is one sweep at a given time.
- The LRU eviction policy and the 1000-entry bound of the cache, which belong to a library. The cache is a map, and eviction is any removal of entries (`RateLimiter.EvictionStartsFresh`).
- `time.ParseDuration` and `logger.Fatal` on a malformed duration. Durations are parsed naturals in nanoseconds.
- RateLimiter.Step: Retry-After is whole seconds from the same clock reading as the window check. The source re-reads the clock, which can make the hint slightly smaller. Its float conversion is also left out.
- `net.SplitHostPort` and JSON decoding and encoding. Each is reduced to success or failure: an optional host, and an optional decoded body.
- Response encoding. The login response's expiry strings, the JSON field names and the `Content-Type` header are not modelled. Store results are opaque strings.
- bcrypt and the JWT library. Both are functions passed in.
  - `Auth.FaithfulCodec` states the one assumption the round-trip lemmas need: the parser reads back what the signer signed.
  - The `alg` header check is summarised as "signed with HMAC".
- Auth.GetUserIdFromJwt: `user_id` is read as an integer claim. The float64 round trip in the source (auth.go:140-141) loses precision above 2^53, and that is not modelled. Likewise `exp` and `nbf` are whole seconds. The library decodes them as float64 and would also accept a fractional second, which the model does not represent.
- The library's final "invalid token claims" branch (auth.go:147-148) is not a separate case. It cannot be reached once parsing succeeded with map claims.
- LoginAttempts.RegisterFailedAttempt: the count is an unbounded integer. Go's int would wrap after 2^63 failures.
- RateLimiter.Step: the request count is likewise unbounded.
- Auth.ValidateCredential: Go's `len` counts bytes, and the model counts characters. They agree on every string the pattern accepts, which is all ASCII. The validators refuse every other string either way.
- The store's SQL, its permission decisions and its revocation semantics. Each procedure is a function from arguments to a result. The permission check Register consults is a parameter. Only the two sentinels the Go code interprets are modelled: id 0 for a taken username and -1 for an unknown refresh token.
- Configuration loading, the logger, application bootstrap (including random default passwords), `main` and the legacy router. Configuration values are parameters.
- The rest of `internal/transport/handler.go`. It is an older copy of the handlers, middleware and helpers that the split files supersede. Only its `authenticate` is used.
- `internal/models/models.go`, which only holds plain request and response types.
- Handlers.GetTransactionsHistory: reads with the corrected page arithmetic. For a page above 461168601842738791 the source's 64-bit offset wraps (utils.go:40; see Findings), and the model's offset does not.
- Handlers.HistoryPageWindow: states the corrected offset (p-1)*20 for every page. It agrees with the source only while (p-1)*20 fits in 64 bits, and says so in its second ensures.
- Handlers.Login: composes the corrected authenticate. When the login flow returns no error with an empty token, the source panics (handler.go:482; see Findings) and the model answers 401. Handlers.AuthEndpointsAgreeWithWritten states when the two agree.
- Handlers.Register: composes the corrected authenticate, with the same difference and the same agreement lemma as Handlers.Login.
- Authenticate.Authenticate: one clock reading serves both the lockout check and the failure record. The source reads the clock separately for each (login_attempts.go:14 and :31), with the credential check in between, so the real lock end is slightly later than modelled.
- Authenticate.AuthenticateAsWritten: the same single clock reading as Authenticate.Authenticate.
- Auth.IssueTokens: one clock reading dates both tokens. The source reads the clock once in generateJWT for the access token's `exp` (auth.go:90) and again in generateRefreshToken for the refresh token's expiry (auth.go:101). Auth.RegisterUser and Auth.Login issue through it, and Handlers.Login uses the same reading for the lockout as well.
- Handlers.RefreshJwt: it is modelled as written, including the panic on a nil error with an empty token. That branch is unreachable in the server, since the handler has no route (`Server.UnroutedHandlers`).
- The default-password check logs in through the real login flow (`Server.LoginStillDefault`). Each probe that succeeds therefore also issues tokens, which the model records in the flow's calls and otherwise ignores.

## Findings

| source | as written | input that shows it | evidently intended | confidence | as-written member | corrected member |
|---|---|---|---|---|---|---|
| internal/transport/handler.go:479-485 | When the credential function returns no error but an empty token or refresh token, the failure is recorded and then the nil error's `Error()` is called while logging | A credential function returning `("token", "", nil)` for a POST whose username is not locked | Record the failure and answer 401 "Invalid credentials" | not executed | Authenticate.AuthenticateAsWritten, Authenticate.EmptyTokenPanics | Authenticate.Authenticate, Authenticate.AgreeOnWellBehavedAuth |
| internal/transport/utils.go:40 | `(page - 1) * 20` in 64-bit int overflows for large pages | `page=9223372036854775807` gives offset -40 | A non-negative offset of (page-1)*20 rows | not executed | Utils.ParsePageAsWritten, Utils.ParsePageOverflow | Utils.ParsePage |

=== FILE: auth.dfy ===
/** Credential validation and the authentication flows: registration,
    login, password change, access-token refresh, and reading the user id
    back out of an access token. The store's procedures, bcrypt and the JWT
    library are collaborators passed in as functions; every flow reports the
    collaborator calls it made, in order. */
module Auth {
  import opened Common

  /** The security settings the flows read, durations already parsed. */
  datatype SecurityConfig = SecurityConfig(
    loginMinLength: int,
    loginMaxLength: int,
    passwordMinLength: int,
    passwordMaxLength: int,
    tokenLifespan: Duration,
    refreshLifespan: Duration)

  // ---------------------------------------------------------------------------
  // Validators
  // ---------------------------------------------------------------------------

  /** The bracket expression both validators match, member by member as RE2
      reads it. The `)-_` in the middle is a range from ')' to '_', not three
      separate characters. */
  predicate InPatternClass(c: char) {
    || 'a' <= c <= 'z' || 'A' <= c <= 'Z' || '0' <= c <= '9'
    || c == '!' || c == '@' || c == '#' || c == '$' || c == '%' || c == '^'
    || c == '&' || c == '*' || c == '('
    || ')' <= c <= '_'
    || c == '=' || c == '+' || c == '{' || c == '}' || c == '[' || c == ']'
    || c == '|' || c == ':' || c == ';' || c == '"' || c == '\'' || c == '<'
    || c == '>' || c == ',' || c == '.' || c == '?' || c == '/' || c == '~'
    || c == '`'
  }

  /** Printable ASCII other than the space. */
  predicate PrintableAscii(c: char) {
    '!' <= c <= '~'
  }

  /** The class is exactly printable ASCII: no space, no control character,
      nothing beyond ASCII. */
  lemma PatternClassIsPrintableAscii(c: char)
    ensures InPatternClass(c) <==> PrintableAscii(c)
  {
  }

  /** `^[...]+$`: one or more characters, all in the class. */
  predicate MatchesPattern(s: string) {
    |s| >= 1 && forall i :: 0 <= i < |s| ==> InPatternClass(s[i])
  }

  /** The shared shape of both validators. Go measures `len` in bytes; a
      string that matches the pattern is ASCII, so there bytes and characters
      agree, and a string that does not match is refused either way. */
  function ValidateCredential(s: string, minLength: int, maxLength: int): (ok: bool)
    ensures ok <==> && |s| >= 1
                    && (forall i :: 0 <= i < |s| ==> PrintableAscii(s[i]))
                    && minLength <= |s| <= maxLength
  {
    MatchesPattern(s) && |s| >= minLength && |s| <= maxLength
  }

  function ValidateUsername(cfg: SecurityConfig, username: string): (ok: bool)
    ensures ok <==> MatchesPattern(username)
                    && cfg.loginMinLength <= |username| <= cfg.loginMaxLength
  {
    ValidateCredential(username, cfg.loginMinLength, cfg.loginMaxLength)
  }

  function ValidatePassword(cfg: SecurityConfig, password: string): (ok: bool)
    ensures ok <==> MatchesPattern(password)
                    && cfg.passwordMinLength <= |password| <= cfg.passwordMaxLength
  {
    ValidateCredential(password, cfg.passwordMinLength, cfg.passwordMaxLength)
  }

  /** A space or any non-ASCII character makes a credential invalid,
      whatever the length bounds are. */
  lemma ValidatorsRefuseOutsideClass(cfg: SecurityConfig, s: string, i: int)
    requires 0 <= i < |s|
    requires s[i] == ' ' || s[i] > '~' || s[i] < ' '
    ensures !ValidateUsername(cfg, s) && !ValidatePassword(cfg, s)
  {
  }

  // ---------------------------------------------------------------------------
  // Collaborators
  // ---------------------------------------------------------------------------

  datatype SigningMethod = Hmac | NonHmac

  datatype ClaimValue = Number(n: int) | Text(s: string)

  type Claims = map<string, ClaimValue>

  /** What the JWT library makes of a token string before any validation:
      unreadable, or its signing method, whether the signature checks out
      against the server's secret, and its claims. */
  datatype ParsedJwt =
    | Malformed
    | Decoded(signing: SigningMethod, signatureOk: bool, claims: Claims)

  /** HS256 signing with the server's secret, and token decoding. */
  datatype JwtLibrary = JwtLibrary(sign: Claims -> Result<string>, parse: string -> ParsedJwt)

  /** bcrypt at the default cost: hashing, and comparing a hash with a password. */
  datatype Bcrypt = Bcrypt(generate: string -> Result<string>, compare: (string, string) -> bool)

  /** The store's procedures as the flows see them. `registerUser` returns the
      procedure's new id, where 0 means the username is taken;
      `getUserByRefreshToken` returns -1 for a token with no valid row. */
  datatype Store = Store(
    getUserIdHash: string -> Result<(int, string)>,
    registerUser: (string, string) -> Result<int>,
    createRefreshToken: (int, Time) -> Result<string>,
    changePassword: (int, int, string) -> Result<()>,
    invalidateRefreshTokens: int -> Result<()>,
    getUserByRefreshToken: string -> Result<int>)

  /** Everything a flow depends on besides its arguments, `now` included. */
  datatype Env = Env(cfg: SecurityConfig, store: Store, bcrypt: Bcrypt, jwt: JwtLibrary, now: Time)

  /** One call into a collaborator. */
  datatype Call =
    | GenerateHash(password: string)
    | CompareHash(hash: string, password: string)
    | SignJwt(claims: Claims)
    | GetUserIdHash(login: string)
    | RegisterUserCall(login: string, hash: string)
    | CreateRefreshToken(userId: int, expiresAt: Time)
    | ChangePasswordCall(initiator: int, userId: int, hash: string)
    | InvalidateRefreshTokens(userId: int)
    | GetUserByRefreshToken(token: string)

  /** A flow's outcome together with the calls it made. */
  datatype Traced<T> = Traced(result: Result<T>, calls: seq<Call>)

  /** Did the flow mint an access token or a refresh token? */
  predicate IssuesTokens(calls: seq<Call>) {
    exists i :: 0 <= i < |calls| && (calls[i].SignJwt? || calls[i].CreateRefreshToken?)
  }

  // ---------------------------------------------------------------------------
  // Token issuance
  // ---------------------------------------------------------------------------

  /** `Unix()` of a clock reading: whole seconds, rounded down. */
  function UnixSeconds(t: Time): int {
    t / Second
  }

  /** The claims of an access token for `id` issued at `now`. */
  function JwtClaims(id: int, now: Time, lifespan: Duration): (c: Claims)
    ensures c.Keys == {"user_id", "exp"}
    ensures c["user_id"] == Number(id)
    ensures c["exp"].Number? && c["exp"].n * Second <= now + lifespan < (c["exp"].n + 1) * Second
  {
    map["user_id" := Number(id), "exp" := Number(UnixSeconds(now + lifespan))]
  }

  /** generateJWT: sign the claims for `id`. */
  function GenerateJwt(env: Env, id: int): (r: Traced<string>)
    ensures r.calls == [SignJwt(JwtClaims(id, env.now, env.cfg.tokenLifespan))]
    ensures r.result == env.jwt.sign(JwtClaims(id, env.now, env.cfg.tokenLifespan))
  {
    var claims := JwtClaims(id, env.now, env.cfg.tokenLifespan);
    Traced(env.jwt.sign(claims), [SignJwt(claims)])
  }

  /** generateRefreshToken: the store mints a token for `userId` that expires
      one refresh lifespan from now. */
  function GenerateRefreshToken(env: Env, userId: int): (r: Traced<string>)
    ensures r.calls == [CreateRefreshToken(userId, env.now + env.cfg.refreshLifespan)]
    ensures r.result == env.store.createRefreshToken(userId, env.now + env.cfg.refreshLifespan)
  {
    var expiresAt := env.now + env.cfg.refreshLifespan;
    Traced(env.store.createRefreshToken(userId, expiresAt), [CreateRefreshToken(userId, expiresAt)])
  }

  /** The tail shared by registration and login: an access token, then a
      refresh token, both for `id`; the refresh token is not attempted when
      signing fails. */
  function IssueTokens(env: Env, id: int): (r: Traced<(string, string)>)
    ensures r.result.Ok? <==> GenerateJwt(env, id).result.Ok? && GenerateRefreshToken(env, id).result.Ok?
    ensures r.result.Ok? ==>
              r.result.value == (GenerateJwt(env, id).result.value, GenerateRefreshToken(env, id).result.value)
    ensures r.calls == GenerateJwt(env, id).calls +
              (if GenerateJwt(env, id).result.Ok? then GenerateRefreshToken(env, id).calls else [])
  {
    var access := GenerateJwt(env, id);
    match access.result
    case Err(e) => Traced(Err(e), access.calls)
    case Ok(token) =>
      var refresh := GenerateRefreshToken(env, id);
      match refresh.result
      case Err(e) => Traced(Err(e), access.calls + refresh.calls)
      case Ok(refreshToken) => Traced(Ok((token, refreshToken)), access.calls + refresh.calls)
  }

  // ---------------------------------------------------------------------------
  // Flows
  // ---------------------------------------------------------------------------

  /** The repository's registration wrapper: id 0 from the procedure means
      the username already exists. */
  function RepositoryRegisterUser(store: Store, login: string, hash: string): (r: Result<int>)
    ensures r.Ok? ==> r.value != 0 && store.registerUser(login, hash) == Ok(r.value)
    ensures store.registerUser(login, hash) == Ok(0) ==> r == Err("user already exists: " + login)
  {
    match store.registerUser(login, hash)
    case Err(e) => Err(e)
    case Ok(id) => if id == 0 then Err("user already exists: " + login) else Ok(id)
  }

  /** RegisterUser: validate the username, then the password, then hash,
      store, and issue both tokens for the new id. */
  function RegisterUser(env: Env, login: string, password: string): (r: Traced<(string, string)>)
    ensures !ValidateUsername(env.cfg, login) ==> r == Traced(Err("invalid username"), [])
    ensures ValidateUsername(env.cfg, login) && !ValidatePassword(env.cfg, password) ==>
              r == Traced(Err("invalid password"), [])
    ensures IssuesTokens(r.calls) ==>
              && ValidateUsername(env.cfg, login) && ValidatePassword(env.cfg, password)
              && env.bcrypt.generate(password).Ok?
              && RepositoryRegisterUser(env.store, login, env.bcrypt.generate(password).value).Ok?
    ensures r.result.Ok? ==>
              && ValidateUsername(env.cfg, login) && ValidatePassword(env.cfg, password)
              && env.bcrypt.generate(password).Ok?
              && var hash := env.bcrypt.generate(password).value;
                 && RepositoryRegisterUser(env.store, login, hash).Ok?
                 && var id := RepositoryRegisterUser(env.store, login, hash).value;
                    && r.calls == [GenerateHash(password), RegisterUserCall(login, hash)] + IssueTokens(env, id).calls
                    && r.result == IssueTokens(env, id).result
    ensures (&& ValidateUsername(env.cfg, login) && ValidatePassword(env.cfg, password)
             && env.bcrypt.generate(password).Ok?
             && RepositoryRegisterUser(env.store, login, env.bcrypt.generate(password).value).Ok?) ==>
              var hash := env.bcrypt.generate(password).value;
              var id := RepositoryRegisterUser(env.store, login, hash).value;
              r == Traced(IssueTokens(env, id).result,
                          [GenerateHash(password), RegisterUserCall(login, hash)] + IssueTokens(env, id).calls)
  {
    if !ValidateUsername(env.cfg, login) then Traced(Err("invalid username"), [])
    else if !ValidatePassword(env.cfg, password) then Traced(Err("invalid password"), [])
    else
      match env.bcrypt.generate(password)
      case Err(e) => Traced(Err(e), [GenerateHash(password)])
      case Ok(hash) =>
        var stored := [GenerateHash(password), RegisterUserCall(login, hash)];
        match RepositoryRegisterUser(env.store, login, hash)
        case Err(e) => Traced(Err(e), stored)
        case Ok(id) =>
          var tokens := IssueTokens(env, id);
          Traced(tokens.result, stored + tokens.calls)
  }

  /** The store knows `login`, holds a non-empty hash for it, and the hash
      matches `password`. */
  predicate PasswordAccepted(env: Env, login: string, password: string) {
    && env.store.getUserIdHash(login).Ok?
    && env.store.getUserIdHash(login).value.1 != ""
    && env.bcrypt.compare(env.store.getUserIdHash(login).value.1, password)
  }

  /** Login: look the user up, check the hash, issue both tokens. */
  function Login(env: Env, login: string, password: string): (r: Traced<(string, string)>)
    ensures |r.calls| >= 1 && r.calls[0] == GetUserIdHash(login)
    ensures IssuesTokens(r.calls) ==> PasswordAccepted(env, login, password)
    ensures !PasswordAccepted(env, login, password) ==> r.result.Err?
    ensures PasswordAccepted(env, login, password) ==>
              var id := env.store.getUserIdHash(login).value.0;
              var hash := env.store.getUserIdHash(login).value.1;
              && r.result == IssueTokens(env, id).result
              && r.calls == [GetUserIdHash(login), CompareHash(hash, password)] + IssueTokens(env, id).calls
  {
    match env.store.getUserIdHash(login)
    case Err(e) => Traced(Err(e), [GetUserIdHash(login)])
    case Ok((id, hash)) =>
      if hash == "" then Traced(Err("Couldnt find hash for user " + login), [GetUserIdHash(login)])
      else if !env.bcrypt.compare(hash, password) then
        Traced(Err("Invalid password for user " + login), [GetUserIdHash(login), CompareHash(hash, password)])
      else
        var tokens := IssueTokens(env, id);
        Traced(tokens.result, [GetUserIdHash(login), CompareHash(hash, password)] + tokens.calls)
  }

  /** Did the flow ask the store to drop `userId`'s refresh tokens? */
  predicate Invalidated(calls: seq<Call>, userId: int) {
    exists i :: 0 <= i < |calls| && calls[i] == InvalidateRefreshTokens(userId)
  }

  /** Did the flow write a new password hash for `userId`? */
  predicate PasswordWritten(calls: seq<Call>, userId: int) {
    exists i :: 0 <= i < |calls| && calls[i].ChangePasswordCall? && calls[i].userId == userId
  }

  /** ChangePassword: validate, hash, store the new hash (the store decides
      whether `initiator` may change `userId`'s password), then drop all of
      `userId`'s refresh tokens. */
  function ChangePassword(env: Env, initiator: int, userId: int, password: string): (r: Traced<()>)
    ensures !ValidatePassword(env.cfg, password) ==> r == Traced(Err("invalid password"), [])
    ensures env.bcrypt.generate(password).Err? ==> r.result == Err("invalid password")
    ensures PasswordWritten(r.calls, userId) ==> ValidatePassword(env.cfg, password)
    ensures Invalidated(r.calls, userId) ==>
              && env.bcrypt.generate(password).Ok?
              && env.store.changePassword(initiator, userId, env.bcrypt.generate(password).value).Ok?
    ensures && ValidatePassword(env.cfg, password)
            && env.bcrypt.generate(password).Ok?
            && env.store.changePassword(initiator, userId, env.bcrypt.generate(password).value).Ok?
            && env.store.invalidateRefreshTokens(userId).Err? ==>
              r.result == Err("Couldnt invalidate refresh tokens")
    ensures (&& ValidatePassword(env.cfg, password)
             && env.bcrypt.generate(password).Ok?
             && env.store.changePassword(initiator, userId, env.bcrypt.generate(password).value).Ok?
             && env.store.invalidateRefreshTokens(userId).Ok?) ==>
              r.result == Ok(())
    ensures r.result.Ok? ==>
              && ValidatePassword(env.cfg, password)
              && env.bcrypt.generate(password).Ok?
              && env.store.changePassword(initiator, userId, env.bcrypt.generate(password).value).Ok?
              && env.store.invalidateRefreshTokens(userId).Ok?
              && var hash := env.bcrypt.generate(password).value;
                 r.calls == [GenerateHash(password), ChangePasswordCall(initiator, userId, hash),
                             InvalidateRefreshTokens(userId)]
  {
    if !ValidatePassword(env.cfg, password) then Traced(Err("invalid password"), [])
    else
      match env.bcrypt.generate(password)
      case Err(_) => Traced(Err("invalid password"), [GenerateHash(password)])
      case Ok(hash) =>
        var written := [GenerateHash(password), ChangePasswordCall(initiator, userId, hash)];
        match env.store.changePassword(initiator, userId, hash)
        case Err(e) => Traced(Err(e), written)
        case Ok(_) =>
          var all := written + [InvalidateRefreshTokens(userId)];
          match env.store.invalidateRefreshTokens(userId)
          case Err(_) => Traced(Err("Couldnt invalidate refresh tokens"), all)
          case Ok(_) => Traced(Ok(()), all)
  }

  /** A successful change drops the target's refresh tokens, and never the
      initiator's when the two differ. */
  lemma ChangePasswordInvalidatesTarget(env: Env, initiator: int, userId: int, password: string)
    requires ChangePassword(env, initiator, userId, password).result.Ok?
    ensures Invalidated(ChangePassword(env, initiator, userId, password).calls, userId)
    ensures initiator != userId ==> !Invalidated(ChangePassword(env, initiator, userId, password).calls, initiator)
  {
    var calls := ChangePassword(env, initiator, userId, password).calls;
    assert calls[2] == InvalidateRefreshTokens(userId);
  }

  /** RefreshJWT: the store resolves the refresh token; a store error or the
      -1 sentinel refuses it, anything else gets an access token for that id. */
  function RefreshJwt(env: Env, refreshToken: string): (r: Traced<string>)
    ensures |r.calls| >= 1 && r.calls[0] == GetUserByRefreshToken(refreshToken)
    ensures env.store.getUserByRefreshToken(refreshToken).Err? ==>
              r == Traced(Err(env.store.getUserByRefreshToken(refreshToken).msg), [GetUserByRefreshToken(refreshToken)])
    ensures env.store.getUserByRefreshToken(refreshToken) == Ok(-1) ==>
              r == Traced(Err("invalid refresh token"), [GetUserByRefreshToken(refreshToken)])
    ensures IssuesTokens(r.calls) ==>
              var id := env.store.getUserByRefreshToken(refreshToken);
              id.Ok? && id.value != -1
    ensures env.store.getUserByRefreshToken(refreshToken).Ok? && env.store.getUserByRefreshToken(refreshToken).value != -1 ==>
              var claims := JwtClaims(env.store.getUserByRefreshToken(refreshToken).value, env.now, env.cfg.tokenLifespan);
              r == Traced(env.jwt.sign(claims), [GetUserByRefreshToken(refreshToken), SignJwt(claims)])
    ensures r.result.Ok? ==>
              var id := env.store.getUserByRefreshToken(refreshToken).value;
              && id != -1
              && r.calls == [GetUserByRefreshToken(refreshToken), SignJwt(JwtClaims(id, env.now, env.cfg.tokenLifespan))]
              && r.result == env.jwt.sign(JwtClaims(id, env.now, env.cfg.tokenLifespan))
  {
    match env.store.getUserByRefreshToken(refreshToken)
    case Err(e) => Traced(Err(e), [GetUserByRefreshToken(refreshToken)])
    case Ok(userId) =>
      if userId == -1 then Traced(Err("invalid refresh token"), [GetUserByRefreshToken(refreshToken)])
      else
        var access := GenerateJwt(env, userId);
        Traced(access.result, [GetUserByRefreshToken(refreshToken)] + access.calls)
  }

  // ---------------------------------------------------------------------------
  // Verification
  // ---------------------------------------------------------------------------

  /** The library's reading of a time claim: a number of Unix seconds, with
      0 read as no claim at all; a claim that is not a number is refused. */
  predicate TimeClaimWellFormed(claims: Claims, key: string) {
    key !in claims || claims[key].Number?
  }

  predicate TimeClaimSet(claims: Claims, key: string) {
    key in claims && claims[key] != Number(0)
  }

  /** The library's default time checks: a token carrying `exp` is expired
      from that second onward, and a token carrying `nbf` is not valid before
      that second; a non-numeric `exp` or `nbf` is refused; a token without
      them, or with them at 0, has no such limit. `iat` is not checked by
      default. */
  predicate TimeClaimsAccept(claims: Claims, now: Time) {
    && TimeClaimWellFormed(claims, "exp") && TimeClaimWellFormed(claims, "nbf")
    && (TimeClaimSet(claims, "exp") ==> now < claims["exp"].n * Second)
    && (TimeClaimSet(claims, "nbf") ==> claims["nbf"].n * Second <= now)
  }

  /** GetUserIDFromJWT: only an HMAC-signed token with a good signature,
      time claims that accept `now` and a numeric `user_id` yields an id;
      every other token yields an error. */
  function GetUserIdFromJwt(lib: JwtLibrary, token: string, now: Time): (r: Result<int>)
    ensures r.Ok? <==>
              && lib.parse(token).Decoded?
              && lib.parse(token).signing == Hmac
              && lib.parse(token).signatureOk
              && TimeClaimsAccept(lib.parse(token).claims, now)
              && "user_id" in lib.parse(token).claims
              && lib.parse(token).claims["user_id"].Number?
    ensures r.Ok? ==> r.value == lib.parse(token).claims["user_id"].n
  {
    match lib.parse(token)
    case Malformed => Err("invalid token: malformed")
    case Decoded(signing, signatureOk, claims) =>
      if signing != Hmac then Err("invalid token: unexpected signing method")
      else if !signatureOk then Err("invalid token: signature is invalid")
      else if !TimeClaimsAccept(claims, now) then Err("invalid token: token has invalid claims")
      else if "user_id" in claims && claims["user_id"].Number? then Ok(claims["user_id"].n)
      else Err("user_id not found in token")
  }

  /** A library whose parser reads back exactly what its signer signed, as an
      HMAC token with a valid signature. */
  ghost predicate FaithfulCodec(lib: JwtLibrary) {
    forall c :: lib.sign(c).Ok? ==> lib.parse(lib.sign(c).value) == Decoded(Hmac, true, c)
  }

  /** The second from which an access token issued under `env` is expired. */
  function ExpirySecond(env: Env): int {
    UnixSeconds(env.now + env.cfg.tokenLifespan)
  }

  /** An access token issued for `id` verifies to `id` strictly before its
      expiry second and is refused at and after it, unless that second is
      the epoch itself, which the library reads as no expiry at all. */
  lemma IssuedTokenRoundTrip(env: Env, id: int, later: Time)
    requires FaithfulCodec(env.jwt)
    requires GenerateJwt(env, id).result.Ok?
    ensures later < ExpirySecond(env) * Second ==>
              GetUserIdFromJwt(env.jwt, GenerateJwt(env, id).result.value, later) == Ok(id)
    ensures later >= ExpirySecond(env) * Second && ExpirySecond(env) != 0 ==>
              GetUserIdFromJwt(env.jwt, GenerateJwt(env, id).result.value, later).Err?
    ensures ExpirySecond(env) == 0 ==>
              GetUserIdFromJwt(env.jwt, GenerateJwt(env, id).result.value, later) == Ok(id)
  {
    var c := JwtClaims(id, env.now, env.cfg.tokenLifespan);
    assert env.jwt.sign(c).Ok?;
    assert env.jwt.parse(env.jwt.sign(c).value) == Decoded(Hmac, true, c);
  }

  /** A zero `exp` or `nbf` sets no limit: a signed token whose time claims
      are both 0 (or absent) is accepted at every instant, before the epoch
      as well as after it. */
  lemma ZeroTimeClaimsSetNoLimit(lib: JwtLibrary, token: string, now: Time)
    requires lib.parse(token).Decoded? && lib.parse(token).signing == Hmac && lib.parse(token).signatureOk
    requires "exp" in lib.parse(token).claims && lib.parse(token).claims["exp"] == Number(0)
    requires "nbf" !in lib.parse(token).claims || lib.parse(token).claims["nbf"] == Number(0)
    requires "user_id" in lib.parse(token).claims && lib.parse(token).claims["user_id"].Number?
    ensures GetUserIdFromJwt(lib, token, now) == Ok(lib.parse(token).claims["user_id"].n)
  {
  }

  /** A refreshed access token verifies to the id the store bound to the
      refresh token. */
  lemma RefreshedTokenRoundTrip(env: Env, refreshToken: string, later: Time)
    requires FaithfulCodec(env.jwt)
    requires RefreshJwt(env, refreshToken).result.Ok?
    requires later < ExpirySecond(env) * Second
    ensures GetUserIdFromJwt(env.jwt, RefreshJwt(env, refreshToken).result.value, later)
         == Ok(env.store.getUserByRefreshToken(refreshToken).value)
  {
    IssuedTokenRoundTrip(env, env.store.getUserByRefreshToken(refreshToken).value, later);
  }

  /** The access token a successful registration returns verifies, until its
      expiry second, to the id the store gave the new user. */
  lemma RegisterIssuesVerifiableTokens(env: Env, login: string, password: string, later: Time)
    requires FaithfulCodec(env.jwt)
    requires RegisterUser(env, login, password).result.Ok?
    requires later < ExpirySecond(env) * Second
    ensures var id := RepositoryRegisterUser(env.store, login, env.bcrypt.generate(password).value).value;
            && GetUserIdFromJwt(env.jwt, RegisterUser(env, login, password).result.value.0, later) == Ok(id)
            && id != 0
  {
    var id := RepositoryRegisterUser(env.store, login, env.bcrypt.generate(password).value).value;
    IssuedTokenRoundTrip(env, id, later);
  }

  /** The access token a successful login returns verifies, until its expiry
      second, to the id the store holds for that login. */
  lemma LoginIssuesVerifiableTokens(env: Env, login: string, password: string, later: Time)
    requires FaithfulCodec(env.jwt)
    requires Login(env, login, password).result.Ok?
    requires later < ExpirySecond(env) * Second
    ensures GetUserIdFromJwt(env.jwt, Login(env, login, password).result.value.0, later)
         == Ok(env.store.getUserIdHash(login).value.0)
  {
    IssuedTokenRoundTrip(env, env.store.getUserIdHash(login).value.0, later);
  }
}

=== FILE: auth_middleware.dfy ===
/** The bearer-token middleware: read the Authorization header, strip one
    "Bearer " prefix, verify the token, and hand the user id to the wrapped
    handler through the request context. */
module AuthMiddleware {
  import opened Common
  import Auth

  const BearerPrefix := "Bearer "
  const MissingHeaderMessage := "Missing Authorization header"
  const UnauthorizedMessage := "Unauthorized"

  /** What the middleware does: call the wrapped handler with the verified
      user id stored under the context key, or answer the request itself. */
  datatype Gate = Forward(userId: int) | Reject(response: Response)

  /** strings.TrimPrefix: drop `prefix` once if `s` starts with it. */
  function TrimPrefix(s: string, prefix: string): (r: string)
    ensures |prefix| <= |s| && s[..|prefix|] == prefix ==> prefix + r == s
    ensures !(|prefix| <= |s| && s[..|prefix|] == prefix) ==> r == s
  {
    if |prefix| <= |s| && s[..|prefix|] == prefix then s[|prefix|..] else s
  }

  /** Prefixing and trimming undo each other, and trimming happens once only. */
  lemma TrimBearer(token: string)
    ensures TrimPrefix(BearerPrefix + token, BearerPrefix) == token
  {
    assert (BearerPrefix + token)[..|BearerPrefix|] == BearerPrefix;
  }

  /** The header `Bearer Bearer t` reaches the verifier as `Bearer t`: only one
      prefix is removed, and matching is case-sensitive. */
  lemma TrimOnlyOnce(token: string)
    ensures TrimPrefix(BearerPrefix + BearerPrefix + token, BearerPrefix) == BearerPrefix + token
    ensures TrimPrefix("bearer " + token, BearerPrefix) == "bearer " + token
  {
    TrimBearer(BearerPrefix + token);
    assert BearerPrefix + BearerPrefix + token == BearerPrefix + (BearerPrefix + token);
  }

  /** AuthMiddleware's decision for a request whose Authorization header is
      `header` (empty when absent), with `verify` as the token verifier. */
  function Decide(header: string, verify: string -> Result<int>): (g: Gate)
    ensures header == "" ==> g == Reject(ErrorResponse(StatusUnauthorized, MissingHeaderMessage))
    ensures header != "" && verify(TrimPrefix(header, BearerPrefix)).Err? ==>
              g == Reject(ErrorResponse(StatusUnauthorized, UnauthorizedMessage))
    ensures header != "" && verify(TrimPrefix(header, BearerPrefix)).Ok? ==>
              g == Forward(verify(TrimPrefix(header, BearerPrefix)).value)
  {
    if header == "" then Reject(ErrorResponse(StatusUnauthorized, MissingHeaderMessage))
    else
      match verify(TrimPrefix(header, BearerPrefix))
      case Err(_) => Reject(ErrorResponse(StatusUnauthorized, UnauthorizedMessage))
      case Ok(userId) => Forward(userId)
  }

  /** A missing header is decided without the verifier: every verifier gives
      the same answer, and that answer is not the bad-token one. */
  lemma MissingHeaderIgnoresVerifier(v1: string -> Result<int>, v2: string -> Result<int>)
    ensures Decide("", v1) == Decide("", v2)
    ensures Decide("", v1) != Reject(ErrorResponse(StatusUnauthorized, UnauthorizedMessage))
  {
  }

  /** The middleware in the server: the verifier is GetUserIDFromJWT at `now`. */
  function Authorize(lib: Auth.JwtLibrary, header: string, now: Time): (g: Gate)
    ensures header == "" ==> g == Reject(ErrorResponse(StatusUnauthorized, MissingHeaderMessage))
    ensures header != "" ==>
              var token := TrimPrefix(header, BearerPrefix);
              && (g.Forward? <==> Auth.GetUserIdFromJwt(lib, token, now).Ok?)
              && (g.Forward? ==> g.userId == Auth.GetUserIdFromJwt(lib, token, now).value)
              && (g.Reject? ==> g.response == ErrorResponse(StatusUnauthorized, UnauthorizedMessage))
  {
    Decide(header, token => Auth.GetUserIdFromJwt(lib, token, now))
  }

  /** A client that sends "Bearer " and an access token issued for `id`
      reaches the wrapped handler as `id` until the token's expiry second. */
  lemma BearerOfIssuedToken(env: Auth.Env, id: int, later: Time)
    requires Auth.FaithfulCodec(env.jwt)
    requires Auth.GenerateJwt(env, id).result.Ok?
    requires later < Auth.ExpirySecond(env) * Second
    ensures Authorize(env.jwt, BearerPrefix + Auth.GenerateJwt(env, id).result.value, later) == Forward(id)
  {
    var token := Auth.GenerateJwt(env, id).result.value;
    TrimBearer(token);
    Auth.IssuedTokenRoundTrip(env, id, later);
  }
}

=== FILE: authenticate.dfy ===
/** The credential endpoint shared by login and registration: method and
    body checks, then the lockout check, then the credential function, then
    a failure recorded or the username's record cleared. */
module Authenticate {
  import opened Common
  import opened LoginAttempts
  import Utils

  /** The JSON body both endpoints accept. */
  datatype AuthRequest = AuthRequest(username: string, password: string)

  /** A request as the endpoint sees it: its method, and its body once
      decoded (None when the body does not decode into an AuthRequest). */
  datatype Request = Request(verb: string, body: Option<AuthRequest>)

  /** The credential function: login or registration, returning an access
      token and a refresh token. */
  type AuthFunc = (string, string) -> Result<(string, string)>

  /** The lockout table after the request, the response, and whether the
      credential function was consulted. */
  datatype Outcome = Outcome(table: Table, response: Response, authCalled: bool)

  const InvalidBodyMessage := "Invalid request body"
  const TooManyAttemptsMessage := "Too many attempts, try again later"
  const InvalidCredentialsMessage := "Invalid credentials"

  /** Did the credential function hand back a usable pair of tokens? */
  predicate Succeeded(answer: Result<(string, string)>) {
    answer.Ok? && answer.value.0 != "" && answer.value.1 != ""
  }

  /** authenticate exactly as written: a credential function that returns
      no error but an empty token gets its failure recorded, and then the
      handler dereferences the nil error while logging, so the handler
      panics instead of answering 401. */
  function AuthenticateAsWritten(t: Table, req: Request, authFunc: AuthFunc, now: Time, p: Policy): (r: Outcome)
    ensures r.table - {if req.body.Some? then req.body.value.username else ""} == t - {if req.body.Some? then req.body.value.username else ""}
    ensures r.response == Aborted <==>
              && req.verb == "POST" && req.body.Some?
              && CheckLoginAttempt(t, req.body.value.username, now)
              && authFunc(req.body.value.username, req.body.value.password).Ok?
              && !Succeeded(authFunc(req.body.value.username, req.body.value.password))
    ensures req.verb != "POST" ==> r == Outcome(t, Utils.InvalidMethod(req.verb), false)
    ensures req.verb == "POST" && req.body.None? ==>
              r == Outcome(t, ErrorResponse(StatusBadRequest, InvalidBodyMessage), false)
    ensures req.verb == "POST" && req.body.Some? ==>
              var u := req.body.value.username;
              var answer := authFunc(u, req.body.value.password);
              && (!CheckLoginAttempt(t, u, now) ==>
                    r == Outcome(t, ErrorResponse(StatusUnauthorized, TooManyAttemptsMessage), false))
              && (CheckLoginAttempt(t, u, now) && answer.Err? ==>
                    r == Outcome(RegisterFailedAttempt(t, u, now, p),
                                 ErrorResponse(StatusUnauthorized, InvalidCredentialsMessage), true))
              && (CheckLoginAttempt(t, u, now) && answer.Ok? && !Succeeded(answer) ==>
                    r == Outcome(RegisterFailedAttempt(t, u, now, p), Aborted, true))
              && (CheckLoginAttempt(t, u, now) && Succeeded(answer) ==>
                    && u !in r.table
                    && r.response == Success(AuthTokens(answer.value.0, answer.value.1))
                    && r.authCalled)
  {
    if req.verb != "POST" then Outcome(t, Utils.InvalidMethod(req.verb), false)
    else match req.body
      case None => Outcome(t, ErrorResponse(StatusBadRequest, InvalidBodyMessage), false)
      case Some(AuthRequest(username, password)) =>
        if !CheckLoginAttempt(t, username, now) then
          Outcome(t, ErrorResponse(StatusUnauthorized, TooManyAttemptsMessage), false)
        else
          var answer := authFunc(username, password);
          if answer.Err? then
            Outcome(RegisterFailedAttempt(t, username, now, p),
                    ErrorResponse(StatusUnauthorized, InvalidCredentialsMessage), true)
          else if answer.value.0 == "" || answer.value.1 == "" then
            Outcome(RegisterFailedAttempt(t, username, now, p), Aborted, true)
          else
            Outcome(ResetLoginAttempts(t, username), Success(AuthTokens(answer.value.0, answer.value.1)), true)
  }

  /** authenticate as evidently intended: every failed credential check,
      error or empty token alike, is recorded and answered with 401. */
  function Authenticate(t: Table, req: Request, authFunc: AuthFunc, now: Time, p: Policy): (r: Outcome)
    ensures req.verb != "POST" ==> r == Outcome(t, Utils.InvalidMethod(req.verb), false)
    ensures req.verb == "POST" && req.body.None? ==>
              r == Outcome(t, ErrorResponse(StatusBadRequest, InvalidBodyMessage), false)
    ensures req.verb == "POST" && req.body.Some? ==>
              var u := req.body.value.username;
              var answer := authFunc(u, req.body.value.password);
              && r.table - {u} == t - {u}
              && (!CheckLoginAttempt(t, u, now) ==>
                    r == Outcome(t, ErrorResponse(StatusUnauthorized, TooManyAttemptsMessage), false))
              && (CheckLoginAttempt(t, u, now) && !Succeeded(answer) ==>
                    r == Outcome(RegisterFailedAttempt(t, u, now, p),
                                 ErrorResponse(StatusUnauthorized, InvalidCredentialsMessage), true))
              && (CheckLoginAttempt(t, u, now) && Succeeded(answer) ==>
                    && u !in r.table
                    && r.response == Success(AuthTokens(answer.value.0, answer.value.1))
                    && r.authCalled)
    ensures r.response != Aborted
  {
    if req.verb != "POST" then Outcome(t, Utils.InvalidMethod(req.verb), false)
    else match req.body
      case None => Outcome(t, ErrorResponse(StatusBadRequest, InvalidBodyMessage), false)
      case Some(AuthRequest(username, password)) =>
        if !CheckLoginAttempt(t, username, now) then
          Outcome(t, ErrorResponse(StatusUnauthorized, TooManyAttemptsMessage), false)
        else
          var answer := authFunc(username, password);
          if !Succeeded(answer) then
            Outcome(RegisterFailedAttempt(t, username, now, p),
                    ErrorResponse(StatusUnauthorized, InvalidCredentialsMessage), true)
          else
            Outcome(ResetLoginAttempts(t, username), Success(AuthTokens(answer.value.0, answer.value.1)), true)
  }

  /** The defect: a nil error with an empty refresh token is counted as a
      failure, yet the client gets no 401 — the written handler panics. */
  lemma EmptyTokenPanics(t: Table, username: string, password: string, authFunc: AuthFunc, now: Time, p: Policy)
    requires CheckLoginAttempt(t, username, now)
    requires authFunc(username, password) == Ok(("token", ""))
    ensures var req := Request("POST", Some(AuthRequest(username, password)));
            var written := AuthenticateAsWritten(t, req, authFunc, now, p);
            var intended := Authenticate(t, req, authFunc, now, p);
            && written.response == Aborted
            && written.table == intended.table == RegisterFailedAttempt(t, username, now, p)
            && intended.response == ErrorResponse(StatusUnauthorized, InvalidCredentialsMessage)
  {
  }

  /** Whenever the credential function never pairs a nil error with an empty
      token, the written and the intended handler agree. */
  lemma AgreeOnWellBehavedAuth(t: Table, req: Request, authFunc: AuthFunc, now: Time, p: Policy)
    requires forall u, pw :: authFunc(u, pw).Ok? ==> Succeeded(authFunc(u, pw))
    ensures AuthenticateAsWritten(t, req, authFunc, now, p) == Authenticate(t, req, authFunc, now, p)
  {
  }

  /** Three failed logins for "alice" with threshold 3 and a 60-second lockout:
      the fourth attempt is refused without consulting the credentials even
      with the right password; 61 seconds after the third failure the right
      password succeeds and alice's record is gone. (The clock reads later
      than Go's zero time, as every real clock does.) */
  lemma LockoutScenario(authFunc: AuthFunc, t0: Time)
    requires t0 >= ZeroTime
    requires authFunc("alice", "wrong").Err?
    requires authFunc("alice", "right") == Ok(("access", "refresh"))
    ensures var p := Policy(3, 60 * Second);
            var wrong := Request("POST", Some(AuthRequest("alice", "wrong")));
            var right := Request("POST", Some(AuthRequest("alice", "right")));
            var o1 := Authenticate(map[], wrong, authFunc, t0, p);
            var o2 := Authenticate(o1.table, wrong, authFunc, t0 + Second, p);
            var o3 := Authenticate(o2.table, wrong, authFunc, t0 + 2 * Second, p);
            var o4 := Authenticate(o3.table, right, authFunc, t0 + 3 * Second, p);
            var o5 := Authenticate(o4.table, right, authFunc, t0 + 63 * Second, p);
            && o4.response == ErrorResponse(StatusUnauthorized, TooManyAttemptsMessage)
            && !o4.authCalled
            && o5.response == Success(AuthTokens("access", "refresh"))
            && "alice" !in o5.table
  {
    var p := Policy(3, 60 * Second);
    var wrong := Request("POST", Some(AuthRequest("alice", "wrong")));
    var right := Request("POST", Some(AuthRequest("alice", "right")));
    var o1 := Authenticate(map[], wrong, authFunc, t0, p);
    assert o1.table["alice"] == LoginAttempt(1, ZeroTime);
    var o2 := Authenticate(o1.table, wrong, authFunc, t0 + Second, p);
    assert CheckLoginAttempt(o1.table, "alice", t0 + Second);
    assert o2.table["alice"] == LoginAttempt(2, ZeroTime);
    var o3 := Authenticate(o2.table, wrong, authFunc, t0 + 2 * Second, p);
    assert CheckLoginAttempt(o2.table, "alice", t0 + 2 * Second);
    assert o3.table["alice"] == LoginAttempt(3, t0 + 62 * Second);
    var o4 := Authenticate(o3.table, right, authFunc, t0 + 3 * Second, p);
    assert o4.table == o3.table;
  }
}

=== FILE: common.dfy ===
/** Shared vocabulary of the admission and identity layer: clock values,
    optional and fallible results, and the HTTP responses handlers write. */
module Common {

  /** A reading of the process clock, in nanoseconds (Go's `time.Time`,
      reduced to the integer it orders by). */
  type Time = int

  /** A pre-parsed, non-negative `time.Duration`, in nanoseconds. */
  type Duration = nat

  const Second: Duration := 1_000_000_000
  const Minute: Duration := 60 * Second

  datatype Option<T> = None | Some(value: T)

  /** A Go `(value, error)` pair: exactly one of the two is meaningful. */
  datatype Result<T> = Ok(value: T) | Err(msg: string)

  const StatusOK := 200
  const StatusBadRequest := 400
  const StatusUnauthorized := 401
  const StatusForbidden := 403
  const StatusMethodNotAllowed := 405
  const StatusTooManyRequests := 429
  const StatusInternalServerError := 500

  /** The JSON body of a successful response. */
  datatype Payload =
    | NoPayload
    | AuthTokens(token: string, refreshToken: string)
    | AccessToken(token: string)
    | StoreData(data: string)

  /** What a handler leaves on the wire. `Aborted` is a handler that
      panicked: the HTTP server recovers and drops the connection, so the
      client receives no status at all. */
  datatype Response =
    | ErrorResponse(status: int, message: string)
    | Success(payload: Payload)
    | Aborted
}

=== FILE: handlers.dfy ===
/** The HTTP handlers: the order in which each one checks method,
    parameters or body, caller identity, and finally calls the store, and the
    status each failed check maps to. */
module Handlers {
  import opened Common
  import opened Utils
  import Strconv
  import LoginAttempts
  import Authenticate
  import Auth

  /** A request as a handler sees it: method, URL query, the JSON body once
      decoded (None when it does not decode), and the user id the auth
      middleware put in the context (None when there is none). */
  datatype HttpRequest<B> = HttpRequest(verb: string, query: Query, body: Option<B>, identity: Option<int>)

  datatype TransactionRequest = TransactionRequest(from: int, to: int, currency: string, amount: int)
  datatype PrintMoneyRequest = PrintMoneyRequest(receiverId: int, currency: string, amount: int)
  datatype ModifyPermissionRequest = ModifyPermissionRequest(permissionId: int, userId: int, enabled: bool)
  datatype ChangePasswordRequest = ChangePasswordRequest(userId: int, password: string)
  datatype RefreshRequest = RefreshRequest(refreshToken: string)

  /** One call into the ledger's stored procedures, with its arguments. */
  datatype LedgerCall =
    | GetTransactionsHistoryCall(initiator: int, target: int, limit: int, offset: int)
    | GetTransactionCountCall(initiator: int, target: int)
    | GetUserPermissionsCall(userId: int)
    | GetUserIdCall(username: string)
    | GetUsernameCall(userId: int)
    | GetBalancesCall(initiator: int, target: int)
    | TransferMoneyCall(from: int, to: int, initiator: int, currency: string, amount: int)
    | PrintMoneyCall(receiver: int, initiator: int, amount: int, currency: string)
    | SetPermissionCall(initiator: int, userId: int, permissionId: int)
    | UnsetPermissionCall(initiator: int, userId: int, permissionId: int)

  /** The ledger: each call yields its JSON-ready data or an error message. */
  type Ledger = LedgerCall -> Result<string>

  /** The response and the ledger call the handler made, if any. */
  datatype HandlerOutcome = HandlerOutcome(response: Response, call: Option<LedgerCall>)

  const UnauthorizedMessage := "Unauthorized"
  const InvalidIdMessage := "Missing or invalid id parameter"
  const InvalidPageMessage := "Missing or invalid page parameter"
  const InvalidBodyMessage := "Invalid request body"

  function Unauthorized(): HandlerOutcome {
    HandlerOutcome(ErrorResponse(StatusUnauthorized, UnauthorizedMessage), None)
  }

  function BadRequest(message: string): HandlerOutcome {
    HandlerOutcome(ErrorResponse(StatusBadRequest, message), None)
  }

  /** A read: the store's data on success, a fixed status and message on error. */
  function Read(ledger: Ledger, call: LedgerCall, status: int, message: string): (r: HandlerOutcome)
    ensures r.call == Some(call)
    ensures ledger(call).Ok? ==> r.response == Success(StoreData(ledger(call).value))
    ensures ledger(call).Err? ==> r.response == ErrorResponse(status, message)
  {
    match ledger(call)
    case Ok(data) => HandlerOutcome(Success(StoreData(data)), Some(call))
    case Err(_) => HandlerOutcome(ErrorResponse(status, message), Some(call))
  }

  /** A write: an empty 200 on success, 400 with the store's own message on error. */
  function Write(ledger: Ledger, call: LedgerCall): (r: HandlerOutcome)
    ensures r.call == Some(call)
    ensures ledger(call).Err? ==> r.response == ErrorResponse(StatusBadRequest, ledger(call).msg)
    ensures ledger(call).Ok? ==> r.response == Success(NoPayload)
  {
    match ledger(call)
    case Ok(_) => HandlerOutcome(Success(NoPayload), Some(call))
    case Err(e) => HandlerOutcome(ErrorResponse(StatusBadRequest, e), Some(call))
  }

  // ---------------------------------------------------------------------------
  // Reads
  // ---------------------------------------------------------------------------

  /** GetTransactionsHistory: method, then `id`, then `page`, then identity,
      then the store with the page's limit and offset. */
  function GetTransactionsHistory(req: HttpRequest<()>, ledger: Ledger): (r: HandlerOutcome)
    ensures req.verb != "GET" ==> r == HandlerOutcome(InvalidMethod(req.verb), None)
    ensures req.verb == "GET" && ParseQueryInt(req.query, "id").Err? ==> r == BadRequest(InvalidIdMessage)
    ensures req.verb == "GET" && ParseQueryInt(req.query, "id").Ok? && ParseQueryInt(req.query, "page").Err? ==>
              r == BadRequest(InvalidPageMessage)
    ensures (&& req.verb == "GET" && req.identity.None?
             && ParseQueryInt(req.query, "id").Ok? && ParseQueryInt(req.query, "page").Ok?) ==>
              r == Unauthorized()
    ensures r.call.Some? ==>
              && req.identity.Some?
              && ParseQueryInt(req.query, "id").Ok? && ParseQueryInt(req.query, "page").Ok?
              && var page := ParsePage(ParseQueryInt(req.query, "page").value);
                 r.call.value == GetTransactionsHistoryCall(req.identity.value,
                   ParseQueryInt(req.query, "id").value, page.0, page.1)
    ensures (&& req.verb == "GET" && req.identity.Some?
             && ParseQueryInt(req.query, "id").Ok? && ParseQueryInt(req.query, "page").Ok?) ==>
              var page := ParsePage(ParseQueryInt(req.query, "page").value);
              r == Read(ledger, GetTransactionsHistoryCall(req.identity.value, ParseQueryInt(req.query, "id").value,
                                                           page.0, page.1),
                        StatusBadRequest, "Failed to get transactions history")
  {
    if req.verb != "GET" then HandlerOutcome(InvalidMethod(req.verb), None)
    else match ParseQueryInt(req.query, "id")
      case Err(_) => BadRequest(InvalidIdMessage)
      case Ok(target) =>
        match ParseQueryInt(req.query, "page")
        case Err(_) => BadRequest(InvalidPageMessage)
        case Ok(page) =>
          match req.identity
          case None => Unauthorized()
          case Some(initiator) =>
            var (limit, offset) := ParsePage(page);
            Read(ledger, GetTransactionsHistoryCall(initiator, target, limit, offset),
                 StatusBadRequest, "Failed to get transactions history")
  }

  /** A well-formed request for page p reads rows [(p-1)*20, p*20) of the
      target's history, on behalf of the caller. The offset the source
      computes in 64-bit arithmetic is the same whenever (p-1)*20 fits. */
  lemma HistoryPageWindow(q: Query, target: int, p: int, initiator: int, ledger: Ledger)
    requires Strconv.InInt64(target) && Strconv.InInt64(p) && p >= 1
    ensures var req := HttpRequest("GET", q["id" := Strconv.Itoa(target)]["page" := Strconv.Itoa(p)], None, Some(initiator));
            GetTransactionsHistory(req, ledger).call
              == Some(GetTransactionsHistoryCall(initiator, target, PageSize, (p - 1) * PageSize))
    ensures (p - 1) * PageSize <= Strconv.MaxInt64 ==> ParsePageAsWritten(p) == (PageSize, (p - 1) * PageSize)
  {
    var q1 := q["id" := Strconv.Itoa(target)];
    var q2 := q1["page" := Strconv.Itoa(p)];
    ParseQueryIntRoundTrip(q1, "page", p);
    Strconv.AtoiItoa(target);
    assert q2["id"] == Strconv.Itoa(target);
  }

  /** GetTransactionCount: method, then `id`, then identity, then the store. */
  function GetTransactionCount(req: HttpRequest<()>, ledger: Ledger): (r: HandlerOutcome)
    ensures req.verb != "GET" ==> r == HandlerOutcome(InvalidMethod(req.verb), None)
    ensures req.verb == "GET" && ParseQueryInt(req.query, "id").Err? ==> r == BadRequest(InvalidIdMessage)
    ensures req.verb == "GET" && ParseQueryInt(req.query, "id").Ok? && req.identity.None? ==> r == Unauthorized()
    ensures r.call.Some? ==>
              && req.identity.Some? && ParseQueryInt(req.query, "id").Ok?
              && r.call.value == GetTransactionCountCall(req.identity.value, ParseQueryInt(req.query, "id").value)
    ensures req.verb == "GET" && ParseQueryInt(req.query, "id").Ok? && req.identity.Some? ==>
              r == Read(ledger, GetTransactionCountCall(req.identity.value, ParseQueryInt(req.query, "id").value),
                        StatusBadRequest, "Failed to get transaction count")
  {
    if req.verb != "GET" then HandlerOutcome(InvalidMethod(req.verb), None)
    else match ParseQueryInt(req.query, "id")
      case Err(_) => BadRequest(InvalidIdMessage)
      case Ok(target) =>
        match req.identity
        case None => Unauthorized()
        case Some(initiator) =>
          Read(ledger, GetTransactionCountCall(initiator, target), StatusBadRequest, "Failed to get transaction count")
  }

  /** GetUserPermissions: method, then `id`, then the store; it never looks
      at the caller's identity, and a store failure is a 500. */
  function GetUserPermissions(req: HttpRequest<()>, ledger: Ledger): (r: HandlerOutcome)
    ensures req.verb != "GET" ==> r == HandlerOutcome(InvalidMethod(req.verb), None)
    ensures req.verb == "GET" && ParseQueryInt(req.query, "id").Err? ==> r == BadRequest(InvalidIdMessage)
    ensures req.verb == "GET" && ParseQueryInt(req.query, "id").Ok? ==>
              var call := GetUserPermissionsCall(ParseQueryInt(req.query, "id").value);
              && r.call == Some(call)
              && (ledger(call).Ok? ==> r.response == Success(StoreData(ledger(call).value)))
              && (ledger(call).Err? ==> r.response == ErrorResponse(StatusInternalServerError, "Failed to get user permissions"))
  {
    if req.verb != "GET" then HandlerOutcome(InvalidMethod(req.verb), None)
    else match ParseQueryInt(req.query, "id")
      case Err(_) => BadRequest(InvalidIdMessage)
      case Ok(userId) =>
        Read(ledger, GetUserPermissionsCall(userId), StatusInternalServerError, "Failed to get user permissions")
  }

  /** GetUserID: method, then a non-empty `username`, then the store; an
      unknown username is a 401. */
  function GetUserId(req: HttpRequest<()>, ledger: Ledger): (r: HandlerOutcome)
    ensures req.verb != "GET" ==> r == HandlerOutcome(InvalidMethod(req.verb), None)
    ensures req.verb == "GET" && QueryGet(req.query, "username") == "" ==> r == BadRequest("Username is required")
    ensures req.verb == "GET" && QueryGet(req.query, "username") != "" ==>
              var call := GetUserIdCall(req.query["username"]);
              && r.call == Some(call)
              && (ledger(call).Ok? ==> r.response == Success(StoreData(ledger(call).value)))
              && (ledger(call).Err? ==> r.response == ErrorResponse(StatusUnauthorized, "User not found"))
  {
    if req.verb != "GET" then HandlerOutcome(InvalidMethod(req.verb), None)
    else
      var username := QueryGet(req.query, "username");
      if username == "" then BadRequest("Username is required")
      else Read(ledger, GetUserIdCall(username), StatusUnauthorized, "User not found")
  }

  /** GetUsername: method, then `id`, then the store; an unknown id is a 401. */
  function GetUsername(req: HttpRequest<()>, ledger: Ledger): (r: HandlerOutcome)
    ensures req.verb != "GET" ==> r == HandlerOutcome(InvalidMethod(req.verb), None)
    ensures req.verb == "GET" && ParseQueryInt(req.query, "id").Err? ==> r == BadRequest(InvalidIdMessage)
    ensures req.verb == "GET" && ParseQueryInt(req.query, "id").Ok? ==>
              var call := GetUsernameCall(ParseQueryInt(req.query, "id").value);
              && r.call == Some(call)
              && (ledger(call).Ok? ==> r.response == Success(StoreData(ledger(call).value)))
              && (ledger(call).Err? ==> r.response == ErrorResponse(StatusUnauthorized, "User not found"))
  {
    if req.verb != "GET" then HandlerOutcome(InvalidMethod(req.verb), None)
    else match ParseQueryInt(req.query, "id")
      case Err(_) => BadRequest(InvalidIdMessage)
      case Ok(userId) => Read(ledger, GetUsernameCall(userId), StatusUnauthorized, "User not found")
  }

  /** The three identity reads never consult the caller: the same request
      made by anyone, or by no one, gets the same answer from the same call. */
  lemma IdentityReadsIgnoreCaller(req: HttpRequest<()>, caller: Option<int>, ledger: Ledger)
    ensures GetUserPermissions(req.(identity := caller), ledger) == GetUserPermissions(req, ledger)
    ensures GetUserId(req.(identity := caller), ledger) == GetUserId(req, ledger)
    ensures GetUsername(req.(identity := caller), ledger) == GetUsername(req, ledger)
  {
  }

  /** GetBalance: method, then identity, then `id`, then the store. Unlike
      the other reads, identity comes before the parameter. */
  function GetBalance(req: HttpRequest<()>, ledger: Ledger): (r: HandlerOutcome)
    ensures req.verb != "GET" ==> r == HandlerOutcome(InvalidMethod(req.verb), None)
    ensures req.verb == "GET" && req.identity.None? ==> r == Unauthorized()
    ensures req.verb == "GET" && req.identity.Some? && ParseQueryInt(req.query, "id").Err? ==>
              r == BadRequest("User ID is required")
    ensures r.call.Some? ==>
              && req.identity.Some? && ParseQueryInt(req.query, "id").Ok?
              && r.call.value == GetBalancesCall(req.identity.value, ParseQueryInt(req.query, "id").value)
    ensures req.verb == "GET" && req.identity.Some? && ParseQueryInt(req.query, "id").Ok? ==>
              r == Read(ledger, GetBalancesCall(req.identity.value, ParseQueryInt(req.query, "id").value),
                        StatusBadRequest, "Failed to get user balances")
  {
    if req.verb != "GET" then HandlerOutcome(InvalidMethod(req.verb), None)
    else match req.identity
      case None => Unauthorized()
      case Some(initiator) =>
        match ParseQueryInt(req.query, "id")
        case Err(_) => BadRequest("User ID is required")
        case Ok(target) => Read(ledger, GetBalancesCall(initiator, target), StatusBadRequest, "Failed to get user balances")
  }

  /** Without an identity, GetBalance answers 401 whatever the query holds,
      while GetTransactionCount answers 400 for a bad id first. */
  lemma IdentityBeforeIdOnlyInGetBalance(q: Query, ledger: Ledger)
    requires ParseQueryInt(q, "id").Err?
    ensures GetBalance(HttpRequest("GET", q, None, None), ledger) == Unauthorized()
    ensures GetTransactionCount(HttpRequest("GET", q, None, None), ledger) == BadRequest(InvalidIdMessage)
  {
  }

  // ---------------------------------------------------------------------------
  // Writes
  // ---------------------------------------------------------------------------

  /** Transaction: method, then identity, then body, then the transfer, on
      behalf of the caller in the context. */
  function Transaction(req: HttpRequest<TransactionRequest>, ledger: Ledger): (r: HandlerOutcome)
    ensures req.verb != "POST" ==> r == HandlerOutcome(InvalidMethod(req.verb), None)
    ensures req.verb == "POST" && req.identity.None? ==> r == Unauthorized()
    ensures req.verb == "POST" && req.identity.Some? && req.body.None? ==> r == BadRequest(InvalidBodyMessage)
    ensures r.call.Some? ==>
              && req.identity.Some? && req.body.Some?
              && var b := req.body.value;
                 r.call.value == TransferMoneyCall(b.from, b.to, req.identity.value, b.currency, b.amount)
    ensures req.verb == "POST" && req.identity.Some? && req.body.Some? ==>
              var b := req.body.value;
              r == Write(ledger, TransferMoneyCall(b.from, b.to, req.identity.value, b.currency, b.amount))
  {
    if req.verb != "POST" then HandlerOutcome(InvalidMethod(req.verb), None)
    else match req.identity
      case None => Unauthorized()
      case Some(initiator) =>
        match req.body
        case None => BadRequest(InvalidBodyMessage)
        case Some(b) => Write(ledger, TransferMoneyCall(b.from, b.to, initiator, b.currency, b.amount))
  }

  /** PrintMoney: method, then identity, then body, then the store, on
      behalf of the caller in the context. */
  function PrintMoney(req: HttpRequest<PrintMoneyRequest>, ledger: Ledger): (r: HandlerOutcome)
    ensures req.verb != "POST" ==> r == HandlerOutcome(InvalidMethod(req.verb), None)
    ensures req.verb == "POST" && req.identity.None? ==> r == Unauthorized()
    ensures req.verb == "POST" && req.identity.Some? && req.body.None? ==> r == BadRequest(InvalidBodyMessage)
    ensures r.call.Some? ==>
              && req.identity.Some? && req.body.Some?
              && var b := req.body.value;
                 r.call.value == PrintMoneyCall(b.receiverId, req.identity.value, b.amount, b.currency)
    ensures req.verb == "POST" && req.identity.Some? && req.body.Some? ==>
              var b := req.body.value;
              r == Write(ledger, PrintMoneyCall(b.receiverId, req.identity.value, b.amount, b.currency))
  {
    if req.verb != "POST" then HandlerOutcome(InvalidMethod(req.verb), None)
    else match req.identity
      case None => Unauthorized()
      case Some(initiator) =>
        match req.body
        case None => BadRequest(InvalidBodyMessage)
        case Some(b) => Write(ledger, PrintMoneyCall(b.receiverId, initiator, b.amount, b.currency))
  }

  /** ModifyPermission: method, then identity, then body; `enabled` chooses
      between granting and revoking. */
  function ModifyPermission(req: HttpRequest<ModifyPermissionRequest>, ledger: Ledger): (r: HandlerOutcome)
    ensures req.verb != "POST" ==> r == HandlerOutcome(InvalidMethod(req.verb), None)
    ensures req.verb == "POST" && req.identity.None? ==> r == Unauthorized()
    ensures req.verb == "POST" && req.identity.Some? && req.body.None? ==> r == BadRequest(InvalidBodyMessage)
    ensures r.call.Some? ==>
              && req.identity.Some? && req.body.Some?
              && var b := req.body.value;
                 && (r.call.value.SetPermissionCall? <==> b.enabled)
                 && (r.call.value.SetPermissionCall? || r.call.value.UnsetPermissionCall?)
                 && r.call.value.initiator == req.identity.value
                 && r.call.value.userId == b.userId
                 && r.call.value.permissionId == b.permissionId
    ensures req.verb == "POST" && req.identity.Some? && req.body.Some? ==>
              var b := req.body.value;
              r == Write(ledger, if b.enabled then SetPermissionCall(req.identity.value, b.userId, b.permissionId)
                                 else UnsetPermissionCall(req.identity.value, b.userId, b.permissionId))
  {
    if req.verb != "POST" then HandlerOutcome(InvalidMethod(req.verb), None)
    else match req.identity
      case None => Unauthorized()
      case Some(initiator) =>
        match req.body
        case None => BadRequest(InvalidBodyMessage)
        case Some(b) =>
          if b.enabled then Write(ledger, SetPermissionCall(initiator, b.userId, b.permissionId))
          else Write(ledger, UnsetPermissionCall(initiator, b.userId, b.permissionId))
  }

  /** Every ledger write is made on behalf of the identity in the context;
      nothing in the body can choose the initiator. */
  lemma WritesActAsCaller(
    tr: HttpRequest<TransactionRequest>, pm: HttpRequest<PrintMoneyRequest>,
    mp: HttpRequest<ModifyPermissionRequest>, ledger: Ledger)
    ensures Transaction(tr, ledger).call.Some? ==>
              tr.identity.Some? && Transaction(tr, ledger).call.value.initiator == tr.identity.value
    ensures PrintMoney(pm, ledger).call.Some? ==>
              pm.identity.Some? && PrintMoney(pm, ledger).call.value.initiator == pm.identity.value
    ensures ModifyPermission(mp, ledger).call.Some? ==>
              mp.identity.Some? && ModifyPermission(mp, ledger).call.value.initiator == mp.identity.value
  {
  }

  // ---------------------------------------------------------------------------
  // Credentials
  // ---------------------------------------------------------------------------

  /** A handler that went through the authentication flows: its response and
      the collaborator calls it made. */
  datatype AuthOutcome = AuthOutcome(response: Response, calls: seq<Auth.Call>)

  /** ChangePassword: method, then identity, then body, then the password
      change with the caller as initiator and the body's user as target. */
  function ChangePassword(req: HttpRequest<ChangePasswordRequest>, env: Auth.Env): (r: AuthOutcome)
    ensures req.verb != "POST" ==> r == AuthOutcome(InvalidMethod(req.verb), [])
    ensures req.verb == "POST" && req.identity.None? ==>
              r == AuthOutcome(ErrorResponse(StatusUnauthorized, UnauthorizedMessage), [])
    ensures req.verb == "POST" && req.identity.Some? && req.body.None? ==>
              r == AuthOutcome(ErrorResponse(StatusBadRequest, InvalidBodyMessage), [])
    ensures req.verb == "POST" && req.identity.Some? && req.body.Some? ==>
              var flow := Auth.ChangePassword(env, req.identity.value, req.body.value.userId, req.body.value.password);
              && r.calls == flow.calls
              && (flow.result.Ok? ==> r.response == Success(NoPayload))
              && (flow.result.Err? ==> r.response == ErrorResponse(StatusBadRequest, flow.result.msg))
  {
    if req.verb != "POST" then AuthOutcome(InvalidMethod(req.verb), [])
    else match req.identity
      case None => AuthOutcome(ErrorResponse(StatusUnauthorized, UnauthorizedMessage), [])
      case Some(initiator) =>
        match req.body
        case None => AuthOutcome(ErrorResponse(StatusBadRequest, InvalidBodyMessage), [])
        case Some(b) =>
          var flow := Auth.ChangePassword(env, initiator, b.userId, b.password);
          match flow.result
          case Ok(_) => AuthOutcome(Success(NoPayload), flow.calls)
          case Err(e) => AuthOutcome(ErrorResponse(StatusBadRequest, e), flow.calls)
  }

  /** RefreshJWT, as written: a refresh that reports no error but an empty
      token reaches the logging of a nil error and panics. */
  function RefreshJwt(req: HttpRequest<RefreshRequest>, env: Auth.Env): (r: AuthOutcome)
    ensures req.verb != "POST" ==> r == AuthOutcome(InvalidMethod(req.verb), [])
    ensures req.verb == "POST" && req.body.None? ==>
              r == AuthOutcome(ErrorResponse(StatusBadRequest, InvalidBodyMessage), [])
    ensures req.verb == "POST" && req.body.Some? ==>
              var flow := Auth.RefreshJwt(env, req.body.value.refreshToken);
              && r.calls == flow.calls
              && (flow.result.Err? ==> r.response == ErrorResponse(StatusUnauthorized, "Invalid token"))
              && (flow.result.Ok? && flow.result.value != "" ==> r.response == Success(AccessToken(flow.result.value)))
              && (r.response == Aborted <==> flow.result == Ok(""))
  {
    if req.verb != "POST" then AuthOutcome(InvalidMethod(req.verb), [])
    else match req.body
      case None => AuthOutcome(ErrorResponse(StatusBadRequest, InvalidBodyMessage), [])
      case Some(b) =>
        var flow := Auth.RefreshJwt(env, b.refreshToken);
        match flow.result
        case Err(_) => AuthOutcome(ErrorResponse(StatusUnauthorized, "Invalid token"), flow.calls)
        case Ok(token) =>
          if token == "" then AuthOutcome(Aborted, flow.calls)
          else AuthOutcome(Success(AccessToken(token)), flow.calls)
  }

  /** The credential function Login hands to authenticate. */
  function LoginFunc(env: Auth.Env): Authenticate.AuthFunc {
    (u: string, pw: string) => Auth.Login(env, u, pw).result
  }

  /** The credential function Register hands to authenticate. */
  function RegisterFunc(env: Auth.Env): Authenticate.AuthFunc {
    (u: string, pw: string) => Auth.RegisterUser(env, u, pw).result
  }

  function AsAuthRequest(req: HttpRequest<Authenticate.AuthRequest>): Authenticate.Request {
    Authenticate.Request(req.verb, req.body)
  }

  /** Login: authenticate with the login flow, the lockout clock being the
      flow's own `now`. */
  function Login(t: LoginAttempts.Table, req: HttpRequest<Authenticate.AuthRequest>, env: Auth.Env, p: LoginAttempts.Policy)
    : (r: Authenticate.Outcome)
    ensures req.verb != "POST" ==> r == Authenticate.Outcome(t, Utils.InvalidMethod(req.verb), false)
    ensures req.verb == "POST" && req.body.None? ==>
              r == Authenticate.Outcome(t, ErrorResponse(StatusBadRequest, Authenticate.InvalidBodyMessage), false)
    ensures req.verb == "POST" && req.body.Some? ==>
              var u := req.body.value.username;
              && (!LoginAttempts.CheckLoginAttempt(t, u, env.now) ==>
                    r == Authenticate.Outcome(t, ErrorResponse(StatusUnauthorized, Authenticate.TooManyAttemptsMessage), false))
              && (LoginAttempts.CheckLoginAttempt(t, u, env.now)
                  && !Auth.PasswordAccepted(env, u, req.body.value.password) ==>
                    r == Authenticate.Outcome(LoginAttempts.RegisterFailedAttempt(t, u, env.now, p),
                                              ErrorResponse(StatusUnauthorized, Authenticate.InvalidCredentialsMessage), true))
    ensures req.verb == "POST" && req.body.Some? ==>
              var u := req.body.value.username;
              (LoginAttempts.CheckLoginAttempt(t, u, env.now)
               && Auth.PasswordAccepted(env, u, req.body.value.password) ==>
                 var id := env.store.getUserIdHash(u).value.0;
                 if Authenticate.Succeeded(Auth.IssueTokens(env, id).result) then
                   && u !in r.table
                   && r.response == Success(AuthTokens(Auth.IssueTokens(env, id).result.value.0,
                                                       Auth.IssueTokens(env, id).result.value.1))
                   && r.authCalled
                 else
                   r == Authenticate.Outcome(LoginAttempts.RegisterFailedAttempt(t, u, env.now, p),
                                             ErrorResponse(StatusUnauthorized, Authenticate.InvalidCredentialsMessage), true))
  {
    Authenticate.Authenticate(t, AsAuthRequest(req), LoginFunc(env), env.now, p)
  }

  /** The configuration switch and the permission check Register consults. */
  datatype RegisterOutcome = RegisterOutcome(outcome: Authenticate.Outcome, permissionCheckedFor: Option<int>)

  const RegistrationNotAllowedMessage := "Registration not allowed"

  /** Register: with direct registration on, straight to authenticate; with
      it off, the caller must be in the context and hold the registration
      permission. The gate runs before authenticate looks at the method. */
  function Register(
    t: LoginAttempts.Table, req: HttpRequest<Authenticate.AuthRequest>, env: Auth.Env, p: LoginAttempts.Policy,
    allowDirectRegistration: bool, canRegister: int -> bool)
    : (r: RegisterOutcome)
    ensures allowDirectRegistration ==>
              r == RegisterOutcome(Authenticate.Authenticate(t, AsAuthRequest(req), RegisterFunc(env), env.now, p), None)
    ensures !allowDirectRegistration && req.identity.None? ==>
              r == RegisterOutcome(Authenticate.Outcome(t, ErrorResponse(StatusUnauthorized, UnauthorizedMessage), false), None)
    ensures !allowDirectRegistration && req.identity.Some? ==>
              && r.permissionCheckedFor == Some(req.identity.value)
              && (!canRegister(req.identity.value) ==>
                    r.outcome == Authenticate.Outcome(t, ErrorResponse(StatusForbidden, RegistrationNotAllowedMessage), false))
              && (canRegister(req.identity.value) ==>
                    r.outcome == Authenticate.Authenticate(t, AsAuthRequest(req), RegisterFunc(env), env.now, p))
  {
    if allowDirectRegistration then
      RegisterOutcome(Authenticate.Authenticate(t, AsAuthRequest(req), RegisterFunc(env), env.now, p), None)
    else match req.identity
      case None => RegisterOutcome(Authenticate.Outcome(t, ErrorResponse(StatusUnauthorized, UnauthorizedMessage), false), None)
      case Some(initiator) =>
        if canRegister(initiator) then
          RegisterOutcome(Authenticate.Authenticate(t, AsAuthRequest(req), RegisterFunc(env), env.now, p), Some(initiator))
        else
          RegisterOutcome(Authenticate.Outcome(t, ErrorResponse(StatusForbidden, RegistrationNotAllowedMessage), false), Some(initiator))
  }

  /** Neither the signer nor the store ever hands back an empty token. */
  ghost predicate NoEmptyTokens(env: Auth.Env) {
    && (forall c :: env.jwt.sign(c) != Ok(""))
    && (forall id, at :: env.store.createRefreshToken(id, at) != Ok(""))
  }

  /** Whatever the login or registration flow returns without an error is a
      pair of non-empty tokens when no collaborator returns an empty one. */
  lemma FlowsNeverPairNilWithEmpty(env: Auth.Env)
    requires NoEmptyTokens(env)
    ensures forall u, pw :: LoginFunc(env)(u, pw).Ok? ==> Authenticate.Succeeded(LoginFunc(env)(u, pw))
    ensures forall u, pw :: RegisterFunc(env)(u, pw).Ok? ==> Authenticate.Succeeded(RegisterFunc(env)(u, pw))
  {
    forall id | Auth.IssueTokens(env, id).result.Ok?
      ensures Auth.IssueTokens(env, id).result.value.0 != "" && Auth.IssueTokens(env, id).result.value.1 != ""
    {
      assert env.jwt.sign(Auth.JwtClaims(id, env.now, env.cfg.tokenLifespan)) != Ok("");
      assert env.store.createRefreshToken(id, env.now + env.cfg.refreshLifespan) != Ok("");
    }
  }

  /** Login and Register are built on the corrected authenticate. They answer
      exactly as the written handler does whenever neither the signer nor the
      store hands back an empty token; otherwise the written handler panics
      (Authenticate.EmptyTokenPanics). */
  lemma AuthEndpointsAgreeWithWritten(
    t: LoginAttempts.Table, req: HttpRequest<Authenticate.AuthRequest>, env: Auth.Env, p: LoginAttempts.Policy)
    requires NoEmptyTokens(env)
    ensures Login(t, req, env, p)
         == Authenticate.AuthenticateAsWritten(t, AsAuthRequest(req), LoginFunc(env), env.now, p)
    ensures Authenticate.Authenticate(t, AsAuthRequest(req), RegisterFunc(env), env.now, p)
         == Authenticate.AuthenticateAsWritten(t, AsAuthRequest(req), RegisterFunc(env), env.now, p)
  {
    FlowsNeverPairNilWithEmpty(env);
    Authenticate.AgreeOnWellBehavedAuth(t, AsAuthRequest(req), LoginFunc(env), env.now, p);
    Authenticate.AgreeOnWellBehavedAuth(t, AsAuthRequest(req), RegisterFunc(env), env.now, p);
  }

  /** Lockout is keyed by the submitted username and shared by both
      endpoints: a registration that fails for `u` at the last allowed count
      locks `u` out of login, and the login is refused without touching the
      store. */
  lemma LockoutSharedByRegisterAndLogin(
    t: LoginAttempts.Table, u: string, pw: string, pw2: string, env: Auth.Env, p: LoginAttempts.Policy)
    requires p.lockout > 0
    requires LoginAttempts.CheckLoginAttempt(t, u, env.now)
    requires (if u in t then t[u].count else 0) + 1 >= p.maxAttempts
    requires Auth.RegisterUser(env, u, pw).result.Err?
    ensures var reg := Register(t, HttpRequest("POST", map[], Some(Authenticate.AuthRequest(u, pw)), None), env, p, true, _ => false);
            var login := Login(reg.outcome.table, HttpRequest("POST", map[], Some(Authenticate.AuthRequest(u, pw2)), None), env, p);
            && reg.outcome.response == ErrorResponse(StatusUnauthorized, Authenticate.InvalidCredentialsMessage)
            && login.response == ErrorResponse(StatusUnauthorized, Authenticate.TooManyAttemptsMessage)
            && !login.authCalled
  {
    var t' := LoginAttempts.RegisterFailedAttempt(t, u, env.now, p);
    assert !LoginAttempts.CheckLoginAttempt(t', u, env.now);
  }
}

=== FILE: login_attempts.dfy ===
/** The login-lockout table: failed authentication attempts per claimed
    username, a time-based lockout once the failure count reaches the
    configured maximum, and the janitor sweep that forgets expired records. */
module LoginAttempts {
  import opened Common

  /** One username's record: how many failures, and until when it is locked. */
  datatype LoginAttempt = LoginAttempt(count: int, blockedUntil: Time)

  /** The process-wide table, keyed by the username a client claimed. */
  type Table = map<string, LoginAttempt>

  /** Go's zero `time.Time` (1 January of year 1, UTC), the `blockedUntil` of
      a record that has failed but never been locked. */
  const ZeroTime: Time := -62135596800 * Second

  /** The two configuration values the lockout rule reads. */
  datatype Policy = Policy(maxAttempts: int, lockout: Duration)

  /** The record a failure starts from when the username has none. */
  const FreshAttempt := LoginAttempt(0, ZeroTime)

  /** checkLoginAttempt: may `u` try to authenticate at `now`? */
  function CheckLoginAttempt(t: Table, u: string, now: Time): (allowed: bool)
    ensures u !in t ==> allowed
    ensures !allowed <==> u in t && now < t[u].blockedUntil
  {
    if u in t && now < t[u].blockedUntil then false else true
  }

  /** registerFailedAttempt: count one more failure for `u` at `now`. */
  function RegisterFailedAttempt(t: Table, u: string, now: Time, p: Policy): (t': Table)
    ensures u in t'
    ensures t'[u].count == (if u in t then t[u].count else 0) + 1
    ensures t'[u].count >= p.maxAttempts ==> t'[u].blockedUntil == now + p.lockout
    ensures t'[u].count < p.maxAttempts ==>
              t'[u].blockedUntil == (if u in t then t[u].blockedUntil else ZeroTime)
    ensures t' - {u} == t - {u}
  {
    var a := if u in t then t[u] else FreshAttempt;
    var counted := a.(count := a.count + 1);
    var stored := if counted.count >= p.maxAttempts
                  then counted.(blockedUntil := now + p.lockout)
                  else counted;
    t[u := stored]
  }

  /** resetLoginAttempts: forget `u`'s record after a successful login. */
  function ResetLoginAttempts(t: Table, u: string): (t': Table)
    ensures u !in t'
    ensures forall v :: v != u ==> (v in t' <==> v in t)
    ensures forall v :: v in t' ==> t'[v] == t[v]
  {
    t - {u}
  }

  /** cleanupExpiredAttempts: the janitor's sweep at `now`. A record goes
      when `now` is strictly after its `blockedUntil`; that includes every
      record that was never locked, whose `blockedUntil` is the zero time. */
  function CleanupExpiredAttempts(t: Table, now: Time): (t': Table)
    ensures forall u :: u in t' <==> u in t && now <= t[u].blockedUntil
    ensures forall u :: u in t' ==> t'[u] == t[u]
  {
    map u | u in t && !(now > t[u].blockedUntil) :: t[u]
  }

  /** Several failures for one username, in the order they happen. */
  function RegisterFailures(t: Table, u: string, times: seq<Time>, p: Policy): (t': Table)
    decreases |times|
  {
    if |times| == 0 then t
    else RegisterFailures(RegisterFailedAttempt(t, u, times[0], p), u, times[1..], p)
  }

  /** After k failures from no record, the count is k, and the record is locked
      until the last failure plus the lockout exactly when k reached the
      maximum; below the maximum it still carries the zero time. */
  lemma {:induction false} FailuresFromScratch(t: Table, u: string, times: seq<Time>, p: Policy)
    requires u !in t
    requires |times| >= 1
    ensures var t' := RegisterFailures(t, u, times, p);
            && u in t'
            && t'[u].count == |times|
            && t'[u].blockedUntil ==
               (if |times| >= p.maxAttempts then times[|times| - 1] + p.lockout else ZeroTime)
  {
    var k := |times|;
    if k == 1 {
      assert RegisterFailures(t, u, times, p)
          == RegisterFailures(RegisterFailedAttempt(t, u, times[0], p), u, [], p);
    } else {
      var front := times[..k - 1];
      assert front[..k - 2] == times[..k - 2];
      FailuresFromScratch(t, u, front, p);
      SplitLast(t, u, times, p);
    }
  }

  /** Folding a sequence of failures is folding all but the last, then the last. */
  lemma {:induction false} SplitLast(t: Table, u: string, times: seq<Time>, p: Policy)
    requires |times| >= 1
    ensures RegisterFailures(t, u, times, p)
         == RegisterFailedAttempt(RegisterFailures(t, u, times[..|times| - 1], p), u, times[|times| - 1], p)
    decreases |times|
  {
    if |times| == 1 {
      assert times[..0] == [];
    } else {
      var t1 := RegisterFailedAttempt(t, u, times[0], p);
      SplitLast(t1, u, times[1..], p);
      assert times[1..][..|times| - 2] == times[..|times| - 1][1..];
    }
  }

  /** Starting with no record, `maxAttempts` failures with the last at `last`
      deny every attempt before `last + lockout` and allow every attempt from
      then on. */
  lemma LockoutWindow(t: Table, u: string, times: seq<Time>, p: Policy, now: Time)
    requires u !in t
    requires p.maxAttempts >= 1 && |times| == p.maxAttempts
    ensures CheckLoginAttempt(RegisterFailures(t, u, times, p), u, now)
            <==> now >= times[|times| - 1] + p.lockout
  {
    FailuresFromScratch(t, u, times, p);
  }

  /** Fewer than `maxAttempts` failures from no record never lock. */
  lemma BelowThresholdNeverLocks(t: Table, u: string, times: seq<Time>, p: Policy, now: Time)
    requires u !in t
    requires 1 <= |times| < p.maxAttempts
    requires now > ZeroTime
    ensures CheckLoginAttempt(RegisterFailures(t, u, times, p), u, now)
  {
    FailuresFromScratch(t, u, times, p);
  }

  /** An expired record that was neither reset nor swept still has a count at
      or above the maximum, so one further failure locks again at once. */
  lemma ExpiredRecordRelocks(t: Table, u: string, now: Time, p: Policy)
    requires u in t && t[u].count >= p.maxAttempts
    requires p.lockout > 0
    ensures !CheckLoginAttempt(RegisterFailedAttempt(t, u, now, p), u, now)
    ensures RegisterFailedAttempt(t, u, now, p)[u].count > p.maxAttempts
  {
  }

  /** After a reset, `u` may try again at any time, and nobody else's
      standing has changed. */
  lemma ResetAllows(t: Table, u: string, now: Time)
    ensures CheckLoginAttempt(ResetLoginAttempts(t, u), u, now)
    ensures forall v :: v != u ==>
              CheckLoginAttempt(ResetLoginAttempts(t, u), v, now) == CheckLoginAttempt(t, v, now)
  {
  }

  /** A failure for `u` leaves every other username's answer unchanged. */
  lemma FailureIsolated(t: Table, u: string, v: string, at: Time, now: Time, p: Policy)
    requires v != u
    ensures CheckLoginAttempt(RegisterFailedAttempt(t, u, at, p), v, now) == CheckLoginAttempt(t, v, now)
  {
    var t' := RegisterFailedAttempt(t, u, at, p);
    assert (v in t') == (v in t - {u});
  }

  /** The janitor is invisible to the lockout check: from the sweep's time
      on, every username gets the same answer with or without the sweep. */
  lemma CleanupPreservesCheck(t: Table, swept: Time, now: Time, u: string)
    requires swept <= now
    ensures CheckLoginAttempt(CleanupExpiredAttempts(t, swept), u, now) == CheckLoginAttempt(t, u, now)
  {
  }

  /** A record that failed but never reached the maximum is swept by any
      janitor run after the zero time. */
  lemma CleanupDropsNeverLocked(t: Table, u: string, now: Time)
    requires u in t && t[u].blockedUntil == ZeroTime
    requires now > ZeroTime
    ensures u !in CleanupExpiredAttempts(t, now)
  {
  }
}

=== FILE: rate_limiter.dfy ===
/** The per-source fixed-window rate limiter: one `RateLimitInfo` per remote
    host in a bounded cache, a step function that admits or rejects one
    request, and the middleware that wraps it. */
module RateLimiter {
  import opened Common

  /** One source's window: requests counted so far, and when the window ends. */
  datatype RateLimitInfo = RateLimitInfo(requests: int, resetTime: Time)

  /** The cache from remote host to its window. The least-recently-used
      cache of the source may forget any entry at any time; a map that may
      lose keys stands for it. */
  type Cache = map<string, RateLimitInfo>

  /** The window length the middleware uses: fixed at one minute. The step
      and its lemmas take any window length. */
  const TimeWindow: Duration := Minute

  datatype Verdict = Admitted | Rejected(retryAfter: int)

  /** What the middleware does with the request. */
  datatype Gate =
    | CallNext
    | Respond(response: Response, retryAfter: Option<int>)

  function Lookup(c: Cache, ip: string): Option<RateLimitInfo> {
    if ip in c then Some(c[ip]) else None
  }

  /** A window that opens at `now` and counts the request that opened it. */
  function Fresh(now: Time, window: Duration): RateLimitInfo {
    RateLimitInfo(1, now + window)
  }

  /** One request at `now` against the source's current entry (if the cache
      still holds one). Returns the entry to store and the verdict; a
      rejection carries the whole seconds left in the window, the value of
      the Retry-After header. */
  function Step(entry: Option<RateLimitInfo>, now: Time, window: Duration, maxRequests: int)
    : (r: (RateLimitInfo, Verdict))
    ensures entry.None? ==> r == (Fresh(now, window), Admitted)
    ensures entry.Some? && now > entry.value.resetTime ==> r == (Fresh(now, window), Admitted)
    ensures entry.Some? && now <= entry.value.resetTime ==>
              && r.0 == RateLimitInfo(entry.value.requests + 1, entry.value.resetTime)
              && (r.1.Admitted? <==> r.0.requests <= maxRequests)
              && (r.1.Rejected? ==> r.1.retryAfter == (entry.value.resetTime - now) / Second)
  {
    match entry
    case None => (Fresh(now, window), Admitted)
    case Some(e) =>
      if now > e.resetTime then (Fresh(now, window), Admitted)
      else
        var counted := e.(requests := e.requests + 1);
        if counted.requests > maxRequests then (counted, Rejected((counted.resetTime - now) / Second))
        else (counted, Admitted)
  }

  /** RateLimitMiddleware: `host` is the host part of the remote address, or
      None when it could not be split off. */
  function Middleware(c: Cache, host: Option<string>, now: Time, maxRequests: int)
    : (r: (Cache, Gate))
    ensures host.None? ==>
              r == (c, Respond(ErrorResponse(StatusInternalServerError, "Failed to determine IP"), None))
    ensures host.Some? ==>
              var s := Step(Lookup(c, host.value), now, TimeWindow, maxRequests);
              && r.0 == c[host.value := s.0]
              && (r.1.CallNext? <==> s.1.Admitted?)
              && (s.1.Rejected? ==>
                    r.1 == Respond(ErrorResponse(StatusTooManyRequests, "Too many requests"),
                                   Some(s.1.retryAfter)))
  {
    match host
    case None => (c, Respond(ErrorResponse(StatusInternalServerError, "Failed to determine IP"), None))
    case Some(ip) =>
      var (e, v) := Step(Lookup(c, ip), now, TimeWindow, maxRequests);
      var c' := c[ip := e];
      match v
      case Admitted => (c', CallNext)
      case Rejected(after) =>
        (c', Respond(ErrorResponse(StatusTooManyRequests, "Too many requests"), Some(after)))
  }

  /** Only the requesting source's entry changes. */
  lemma MiddlewareIsolated(c: Cache, ip: string, other: string, now: Time, maxRequests: int)
    requires other != ip
    ensures var c' := Middleware(c, Some(ip), now, maxRequests).0;
            && (other in c' <==> other in c)
            && (other in c ==> c'[other] == c[other])
  {
  }

  /** If the cache forgot a source (eviction), that source's next request
      opens a fresh window with count 1 and is admitted, whatever its count
      was before and whatever the ceiling is. */
  lemma EvictionStartsFresh(c: Cache, kept: Cache, ip: string, now: Time, maxRequests: int)
    requires forall k :: k in kept ==> k in c && kept[k] == c[k]
    requires ip !in kept
    ensures Middleware(kept, Some(ip), now, maxRequests)
         == (kept[ip := Fresh(now, TimeWindow)], CallNext)
  {
  }

  /** A stored window never ends more than one window length after the
      clock reading at which it was last written. */
  predicate WithinHorizon(entry: Option<RateLimitInfo>, now: Time, window: Duration) {
    entry.Some? ==> entry.value.resetTime <= now + window
  }

  /** With a clock that never runs backwards, the horizon is kept from one
      request to the next. */
  lemma StepKeepsHorizon(entry: Option<RateLimitInfo>, now: Time, later: Time, window: Duration, maxRequests: int)
    requires WithinHorizon(entry, now, window)
    requires now <= later
    ensures WithinHorizon(Some(Step(entry, now, window, maxRequests).0), later, window)
  {
  }

  /** The Retry-After hint of a rejection is the time left in the window in
      whole seconds: never negative, and at most one window under a monotone
      clock. */
  lemma RetryAfterBounded(entry: Option<RateLimitInfo>, now: Time, window: Duration, maxRequests: int)
    requires WithinHorizon(entry, now, window)
    ensures var v := Step(entry, now, window, maxRequests).1;
            v.Rejected? ==> 0 <= v.retryAfter <= window / Second
  {
  }

  /** A run of requests from one source. */
  function Run(entry: Option<RateLimitInfo>, times: seq<Time>, window: Duration, maxRequests: int)
    : (r: (Option<RateLimitInfo>, seq<Verdict>))
    ensures |r.1| == |times|
    ensures |times| > 0 ==> r.0.Some?
    ensures forall i {:trigger r.1[i]} :: 0 <= i < |times| ==>
              r.1[i] == Step(Run(entry, times[..i], window, maxRequests).0, times[i], window, maxRequests).1
    decreases |times|
  {
    if |times| == 0 then (entry, [])
    else
      var (e, v) := Step(entry, times[0], window, maxRequests);
      var rest := Run(Some(e), times[1..], window, maxRequests);
      assert forall i :: 1 <= i < |times| ==> times[..i][1..] == times[1..][..i - 1];
      (rest.0, [v] + rest.1)
  }

  /** Inside an open window, the i-th further request is the (k+i+1)-th of
      the window, and is admitted exactly when that does not exceed the
      ceiling. */
  lemma {:induction false} RunInsideWindow(k: int, reset: Time, times: seq<Time>, window: Duration, maxRequests: int)
    requires forall i :: 0 <= i < |times| ==> times[i] <= reset
    ensures var r := Run(Some(RateLimitInfo(k, reset)), times, window, maxRequests);
            && (forall i :: 0 <= i < |times| ==> (r.1[i].Admitted? <==> k + i + 1 <= maxRequests))
            && r.0 == Some(RateLimitInfo(k + |times|, reset))
    decreases |times|
  {
    if |times| > 0 {
      var (e, v) := Step(Some(RateLimitInfo(k, reset)), times[0], window, maxRequests);
      assert e == RateLimitInfo(k + 1, reset);
      RunInsideWindow(k + 1, reset, times[1..], window, maxRequests);
      var r := Run(Some(RateLimitInfo(k, reset)), times, window, maxRequests);
      var rest := Run(Some(e), times[1..], window, maxRequests);
      assert r.1 == [v] + rest.1;
      forall i | 0 <= i < |times|
        ensures r.1[i].Admitted? <==> k + i + 1 <= maxRequests
      {
        if i > 0 {
          assert r.1[i] == rest.1[i - 1];
        }
      }
    }
  }

  /** A window opened at `times[0]` (no entry, or the old one expired) admits
      exactly the first `maxRequests` requests that arrive no later than
      `times[0] + window`, and rejects all the rest of them. */
  lemma FreshWindowAdmitsExactlyMax(entry: Option<RateLimitInfo>, times: seq<Time>, window: Duration, maxRequests: int)
    requires maxRequests >= 1
    requires |times| >= 1
    requires entry.None? || times[0] > entry.value.resetTime
    requires forall i :: 0 <= i < |times| ==> times[i] <= times[0] + window
    ensures var r := Run(entry, times, window, maxRequests);
            forall i :: 0 <= i < |times| ==> (r.1[i].Admitted? <==> i < maxRequests)
  {
    var t0 := times[0];
    var e := Fresh(t0, window);
    assert Step(entry, t0, window, maxRequests) == (e, Admitted);
    var tail := times[1..];
    assert forall i :: 0 <= i < |tail| ==> tail[i] == times[i + 1];
    RunInsideWindow(1, t0 + window, tail, window, maxRequests);
    var r := Run(entry, times, window, maxRequests);
    var rest := Run(Some(e), tail, window, maxRequests);
    assert r.1 == [Admitted] + rest.1;
    forall i | 0 <= i < |times|
      ensures r.1[i].Admitted? <==> i < maxRequests
    {
      if i > 0 {
        assert r.1[i] == rest.1[i - 1];
      }
    }
  }

  /** The first request of a window is admitted even when the ceiling is zero
      or negative. */
  lemma FirstOfWindowAlwaysAdmitted(entry: Option<RateLimitInfo>, now: Time, window: Duration, maxRequests: int)
    requires entry.None? || now > entry.value.resetTime
    ensures Step(entry, now, window, maxRequests).1 == Admitted
  {
  }
}

=== FILE: server.dfy ===
/** The server's composition: the one-way latch that blocks business routes
    until every default account's password has been changed, and the route
    table fixing which middleware wraps which handler. */
module Server {
  import opened Common
  import AuthMiddleware
  import Auth

  /** The accounts installed with the default password, in the order the
      check tries them. */
  const DefaultAccounts: seq<string> := ["adm", "fees", "registration", "money_printer"]
  const DefaultPassword := "CHANGE_ME"
  const DefaultsNotChangedMessage :=
    "Default passwords not changed. Change all system passwords to continue. (You only can login and change passwords)"

  /** Does logging in as `account` with the default password still succeed? */
  function LoginStillDefault(env: Auth.Env): (stillDefault: string -> bool)
    ensures forall account :: stillDefault(account) == Auth.Login(env, account, DefaultPassword).result.Ok?
  {
    account => Auth.Login(env, account, DefaultPassword).result.Ok?
  }

  /** Try the accounts in order and stop at the first that still logs in with
      the default password. Returns whether none did, and the accounts tried. */
  function TryAccounts(accounts: seq<string>, stillDefault: string -> bool): (r: (bool, seq<string>))
    ensures r.0 <==> forall i :: 0 <= i < |accounts| ==> !stillDefault(accounts[i])
    ensures 1 <= |r.1| <= |accounts| || (|r.1| == 0 && |accounts| == 0)
    ensures r.1 == accounts[..|r.1|]
    ensures forall i :: 0 <= i < |r.1| - 1 ==> !stillDefault(r.1[i])
    ensures r.0 ==> r.1 == accounts
    ensures !r.0 ==> stillDefault(r.1[|r.1| - 1])
    decreases |accounts|
  {
    if |accounts| == 0 then (true, [])
    else if stillDefault(accounts[0]) then (false, [accounts[0]])
    else
      var rest := TryAccounts(accounts[1..], stillDefault);
      (rest.0, [accounts[0]] + rest.1)
  }

  /** defaultsAreChanged: true exactly when no default account still logs in
      with the default password; the accounts after the first that does are
      never tried. */
  function DefaultsAreChanged(stillDefault: string -> bool): (r: (bool, seq<string>))
    ensures r.0 <==> forall i :: 0 <= i < |DefaultAccounts| ==> !stillDefault(DefaultAccounts[i])
    ensures 1 <= |r.1| <= |DefaultAccounts| && r.1 == DefaultAccounts[..|r.1|]
    ensures !r.0 ==> stillDefault(r.1[|r.1| - 1]) &&
                     forall i :: 0 <= i < |r.1| - 1 ==> !stillDefault(r.1[i])
  {
    TryAccounts(DefaultAccounts, stillDefault)
  }

  /** With the real login flow as the probe: the defaults count as changed
      exactly when every default account's login with the default password
      fails, and they do whenever the store accepts the default password for
      none of them. */
  lemma DefaultsChangedByLogin(env: Auth.Env)
    ensures DefaultsAreChanged(LoginStillDefault(env)).0 <==>
              forall i :: 0 <= i < |DefaultAccounts| ==> Auth.Login(env, DefaultAccounts[i], DefaultPassword).result.Err?
    ensures (forall i :: 0 <= i < |DefaultAccounts| ==> !Auth.PasswordAccepted(env, DefaultAccounts[i], DefaultPassword)) ==>
              DefaultsAreChanged(LoginStillDefault(env)).0
  {
  }

  /** If "adm" still has the default password, no other account is tried. */
  lemma StopsAtAdm(stillDefault: string -> bool)
    requires stillDefault("adm")
    ensures DefaultsAreChanged(stillDefault) == (false, ["adm"])
  {
  }

  datatype Gate = Next | Respond(response: Response)

  /** CheckDefaultsMiddleware: with the latch set, pass straight through;
      otherwise run the check, answer 403 while a default account still logs
      in, and set the latch the first time none does. Returns the new latch. */
  function CheckDefaults(latched: bool, stillDefault: string -> bool): (r: (bool, Gate))
    ensures latched ==> r == (true, Next)
    ensures !latched && !DefaultsAreChanged(stillDefault).0 ==>
              r == (false, Respond(ErrorResponse(StatusForbidden, DefaultsNotChangedMessage)))
    ensures !latched && DefaultsAreChanged(stillDefault).0 ==> r == (true, Next)
    ensures r.0 ==> latched || forall i :: 0 <= i < |DefaultAccounts| ==> !stillDefault(DefaultAccounts[i])
    ensures r.1.Next? <==> r.0
  {
    if latched then (true, Next)
    else if !DefaultsAreChanged(stillDefault).0 then
      (false, Respond(ErrorResponse(StatusForbidden, DefaultsNotChangedMessage)))
    else (true, Next)
  }

  /** The latch across a series of requests, each seeing the accounts' state
      at its own time: the latch value after each request. */
  function LatchRun(latched: bool, checks: seq<string -> bool>): (r: seq<bool>)
    ensures |r| == |checks|
    ensures forall i {:trigger checks[i]} :: 0 <= i < |checks| ==>
              r[i] == CheckDefaults(if i == 0 then latched else r[i - 1], checks[i]).0
    decreases |checks|
  {
    if |checks| == 0 then []
    else
      var next := CheckDefaults(latched, checks[0]).0;
      var rest := LatchRun(next, checks[1..]);
      assert forall i :: 1 <= i < |checks| ==> checks[1..][i - 1] == checks[i];
      [next] + rest
  }

  /** Once set, the latch stays set: the run is monotone, and a latch set
      before the run is set after every request. */
  lemma {:induction false} LatchMonotone(latched: bool, checks: seq<string -> bool>, i: int, j: int)
    requires 0 <= i <= j < |checks|
    ensures LatchRun(latched, checks)[i] ==> LatchRun(latched, checks)[j]
    ensures latched ==> LatchRun(latched, checks)[i]
    decreases |checks|
  {
    var next := CheckDefaults(latched, checks[0]).0;
    var rest := LatchRun(next, checks[1..]);
    assert LatchRun(latched, checks) == [next] + rest;
    if i == 0 {
      if j > 0 && next {
        LatchMonotone(next, checks[1..], j - 1, j - 1);
      }
    } else {
      LatchMonotone(next, checks[1..], i - 1, j - 1);
    }
  }

  /** One request of a run: the first latch value is that request's check,
      and the rest of the run starts from it. */
  lemma LatchRunStep(latched: bool, checks: seq<string -> bool>, j: int)
    requires 0 < j < |checks|
    ensures LatchRun(latched, checks)[0] == CheckDefaults(latched, checks[0]).0
    ensures LatchRun(latched, checks)[j] == LatchRun(CheckDefaults(latched, checks[0]).0, checks[1..])[j - 1]
  {
  }

  /** Once a request finds the defaults changed, the latch is set after it
      and after every later request, whatever the later checks would say. */
  lemma {:induction false} ChangedDefaultsOpenGate(latched: bool, checks: seq<string -> bool>, k: int, j: int)
    requires 0 <= k <= j < |checks|
    requires DefaultsAreChanged(checks[k]).0
    ensures LatchRun(latched, checks)[j]
    decreases |checks|
  {
    if k == 0 {
      assert LatchRun(latched, checks)[0] by {
        if 0 < j { LatchRunStep(latched, checks, j); }
      }
      LatchMonotone(latched, checks, 0, j);
    } else {
      var next := CheckDefaults(latched, checks[0]).0;
      assert checks[1..][k - 1] == checks[k];
      ChangedDefaultsOpenGate(next, checks[1..], k - 1, j - 1);
      LatchRunStep(latched, checks, j);
    }
  }

  // ---------------------------------------------------------------------------
  // Routes
  // ---------------------------------------------------------------------------

  /** The wrappers the route table installs. RateLimitMiddleware exists
      but wraps no route, so it is not among them. */
  datatype Layer = AuthLayer | DefaultsLayer

  datatype Endpoint =
    | LoginEndpoint | ChangePasswordEndpoint | RegisterEndpoint
    | GetBalanceEndpoint | TransactionEndpoint | GetUserIdEndpoint
    | GetUserPermissionsEndpoint | GetTransactionCountEndpoint
    | GetTransactionsHistoryEndpoint | PrintMoneyEndpoint | ModifyPermissionEndpoint

  /** The business routes: all of them behind the token and the defaults gate. */
  function BusinessRoute(path: string): Option<Endpoint> {
    if path == "/api/v1/getBalances" then Some(GetBalanceEndpoint)
    else if path == "/api/v1/transaction" then Some(TransactionEndpoint)
    else if path == "/api/v1/getUserID" then Some(GetUserIdEndpoint)
    else if path == "/api/v1/getUserPermissions" then Some(GetUserPermissionsEndpoint)
    else if path == "/api/v1/getTransactionCount" then Some(GetTransactionCountEndpoint)
    else if path == "/api/v1/getTransactionsHistory" then Some(GetTransactionsHistoryEndpoint)
    else if path == "/api/v1/printMoney" then Some(PrintMoneyEndpoint)
    else if path == "/api/v1/modifyPermission" then Some(ModifyPermissionEndpoint)
    else None
  }

  /** Run's route table: the layers around each endpoint, outermost first. */
  function Route(path: string, allowDirectRegistration: bool): (r: Option<(seq<Layer>, Endpoint)>)
    ensures r.Some? && r.value.1 != RegisterEndpoint && r.value.1 != LoginEndpoint ==>
              |r.value.0| > 0 && r.value.0[0] == AuthLayer
    ensures r.Some? && DefaultsLayer !in r.value.0 ==>
              r.value.1 == LoginEndpoint || r.value.1 == ChangePasswordEndpoint
  {
    if path == "/api/v1/login" then Some(([], LoginEndpoint))
    else if path == "/api/v1/changePassword" then Some(([AuthLayer], ChangePasswordEndpoint))
    else if path == "/api/v1/register" then
      if allowDirectRegistration then Some(([DefaultsLayer], RegisterEndpoint))
      else Some(([AuthLayer, DefaultsLayer], RegisterEndpoint))
    else match BusinessRoute(path)
      case Some(e) => Some(([AuthLayer, DefaultsLayer], e))
      case None => None
  }

  /** Where a request ends up: no route, refused by a layer, or at its
      handler with the identity the auth layer placed in the context. */
  datatype Dispatch = NotFound | Refused(response: Response) | Reached(endpoint: Endpoint, identity: Option<int>)

  /** Run the layers outermost first. Returns the latch afterwards and the
      dispatch. */
  function RunLayers(
    layers: seq<Layer>, endpoint: Endpoint, identity: Option<int>,
    header: string, verify: string -> Result<int>, latched: bool, stillDefault: string -> bool)
    : (r: (bool, Dispatch))
    ensures DefaultsLayer in layers && r.1.Reached? ==> r.0
    ensures DefaultsAreChanged(stillDefault).0 ==> r.1 != Refused(ErrorResponse(StatusForbidden, DefaultsNotChangedMessage))
    ensures DefaultsAreChanged(stillDefault).0 && AuthLayer !in layers ==> r.1.Reached?
    ensures latched ==> r.0
    ensures r.0 ==> latched || DefaultsAreChanged(stillDefault).0
    ensures r.1.Reached? && (AuthLayer in layers || identity.Some?) ==> r.1.identity.Some?
    ensures r.1.Reached? && AuthLayer !in layers ==> r.1.identity == identity
    ensures r.1.Reached? ==> r.1.endpoint == endpoint
    ensures AuthLayer !in layers && DefaultsLayer !in layers ==> r == (latched, Reached(endpoint, identity))
    decreases |layers|
  {
    if |layers| == 0 then (latched, Reached(endpoint, identity))
    else match layers[0]
      case AuthLayer =>
        (match AuthMiddleware.Decide(header, verify)
         case Reject(response) => (latched, Refused(response))
         case Forward(userId) => RunLayers(layers[1..], endpoint, Some(userId), header, verify, latched, stillDefault))
      case DefaultsLayer =>
        var (latched', gate) := CheckDefaults(latched, stillDefault);
        (match gate
         case Respond(response) => (latched', Refused(response))
         case Next => RunLayers(layers[1..], endpoint, identity, header, verify, latched', stillDefault))
  }

  /** The server on one request: route it and run its layers. */
  function Serve(
    path: string, allowDirectRegistration: bool, header: string,
    verify: string -> Result<int>, latched: bool, stillDefault: string -> bool)
    : (r: (bool, Dispatch))
    ensures Route(path, allowDirectRegistration).None? ==> r == (latched, NotFound)
    ensures latched ==> r.0
    ensures r.0 ==> latched || DefaultsAreChanged(stillDefault).0
    ensures r.1.Reached? ==>
              && Route(path, allowDirectRegistration).Some?
              && r.1.endpoint == Route(path, allowDirectRegistration).value.1
              && (r.1.endpoint != LoginEndpoint && r.1.endpoint != RegisterEndpoint ==> r.1.identity.Some?)
  {
    match Route(path, allowDirectRegistration)
    case None => (latched, NotFound)
    case Some((layers, endpoint)) => RunLayers(layers, endpoint, None, header, verify, latched, stillDefault)
  }

  /** /login is never wrapped: every request reaches the handler, without an
      identity, and the latch is untouched. */
  lemma LoginUnwrapped(allowDirectRegistration: bool, header: string, verify: string -> Result<int>,
                       latched: bool, stillDefault: string -> bool)
    ensures Serve("/api/v1/login", allowDirectRegistration, header, verify, latched, stillDefault)
         == (latched, Reached(LoginEndpoint, None))
  {
  }

  /** /changePassword needs a token but not changed defaults: that is how
      the default passwords get changed in the first place. */
  lemma ChangePasswordSkipsDefaults(allowDirectRegistration: bool, header: string, verify: string -> Result<int>,
                                    latched: bool, stillDefault: string -> bool)
    requires header != "" && verify(AuthMiddleware.TrimPrefix(header, AuthMiddleware.BearerPrefix)).Ok?
    ensures Serve("/api/v1/changePassword", allowDirectRegistration, header, verify, latched, stillDefault)
         == (latched, Reached(ChangePasswordEndpoint,
                              Some(verify(AuthMiddleware.TrimPrefix(header, AuthMiddleware.BearerPrefix)).value)))
  {
  }

  /** A business route without an Authorization header is refused before the
      defaults check runs, so the latch cannot move. */
  lemma BusinessRouteNeedsHeader(path: string, allowDirectRegistration: bool, verify: string -> Result<int>,
                                 latched: bool, stillDefault: string -> bool)
    requires BusinessRoute(path).Some?
    ensures Serve(path, allowDirectRegistration, "", verify, latched, stillDefault)
         == (latched, Refused(ErrorResponse(StatusUnauthorized, AuthMiddleware.MissingHeaderMessage)))
  {
  }

  /** With a valid token but a default password still in place and the latch
      unset, a business route answers 403 and the latch stays unset. */
  lemma BusinessRouteBlockedByDefaults(path: string, allowDirectRegistration: bool, header: string,
                                       verify: string -> Result<int>, stillDefault: string -> bool)
    requires BusinessRoute(path).Some?
    requires header != "" && verify(AuthMiddleware.TrimPrefix(header, AuthMiddleware.BearerPrefix)).Ok?
    requires stillDefault("fees")
    ensures Serve(path, allowDirectRegistration, header, verify, false, stillDefault)
         == (false, Refused(ErrorResponse(StatusForbidden, DefaultsNotChangedMessage)))
  {
    assert DefaultAccounts[1] == "fees";
    assert !DefaultsAreChanged(stillDefault).0;
    assert Route(path, allowDirectRegistration) == Some(([AuthLayer, DefaultsLayer], BusinessRoute(path).value));
  }

  /** With a valid token and the defaults changed, a business request reaches
      its handler as the token's user and leaves the latch set, whatever the
      latch was before. */
  lemma BusinessRouteOpensOnChangedDefaults(path: string, allowDirectRegistration: bool, header: string,
                                            verify: string -> Result<int>, latched: bool, stillDefault: string -> bool)
    requires BusinessRoute(path).Some?
    requires header != "" && verify(AuthMiddleware.TrimPrefix(header, AuthMiddleware.BearerPrefix)).Ok?
    requires DefaultsAreChanged(stillDefault).0
    ensures Serve(path, allowDirectRegistration, header, verify, latched, stillDefault)
         == (true, Reached(BusinessRoute(path).value,
                           Some(verify(AuthMiddleware.TrimPrefix(header, AuthMiddleware.BearerPrefix)).value)))
  {
    assert Route(path, allowDirectRegistration) == Some(([AuthLayer, DefaultsLayer], BusinessRoute(path).value));
  }

  /** Without direct registration the Register handler only ever runs with an
      identity in the context, so its own 401 branch cannot be reached through
      the route; with direct registration it runs without one. */
  lemma RegisterRouteIdentity(header: string, verify: string -> Result<int>, latched: bool, stillDefault: string -> bool)
    ensures var r := Serve("/api/v1/register", false, header, verify, latched, stillDefault);
            r.1.Reached? ==> r.1.identity.Some?
    ensures var r := Serve("/api/v1/register", true, header, verify, latched, stillDefault);
            r.1.Reached? ==> r.1.identity.None?
  {
  }

  /** The paths Run registers with its mux. */
  const RegisteredPaths: set<string> := {
    "/api/v1/login", "/api/v1/changePassword", "/api/v1/register",
    "/api/v1/getBalances", "/api/v1/transaction", "/api/v1/getUserID",
    "/api/v1/getUserPermissions", "/api/v1/getTransactionCount",
    "/api/v1/getTransactionsHistory", "/api/v1/printMoney", "/api/v1/modifyPermission"
  }

  /** The path each endpoint is registered under. */
  function PathOf(e: Endpoint): string {
    match e
    case LoginEndpoint => "/api/v1/login"
    case ChangePasswordEndpoint => "/api/v1/changePassword"
    case RegisterEndpoint => "/api/v1/register"
    case GetBalanceEndpoint => "/api/v1/getBalances"
    case TransactionEndpoint => "/api/v1/transaction"
    case GetUserIdEndpoint => "/api/v1/getUserID"
    case GetUserPermissionsEndpoint => "/api/v1/getUserPermissions"
    case GetTransactionCountEndpoint => "/api/v1/getTransactionCount"
    case GetTransactionsHistoryEndpoint => "/api/v1/getTransactionsHistory"
    case PrintMoneyEndpoint => "/api/v1/printMoney"
    case ModifyPermissionEndpoint => "/api/v1/modifyPermission"
  }

  /** The route table serves exactly the registered paths, and each endpoint
      only from its own path; the refresh and username handlers are not
      among them, so no request reaches either. */
  lemma UnroutedHandlers(allowDirectRegistration: bool)
    ensures forall path :: Route(path, allowDirectRegistration).Some? <==> path in RegisteredPaths
    ensures forall path :: Route(path, allowDirectRegistration).Some? ==>
              path == PathOf(Route(path, allowDirectRegistration).value.1)
    ensures "/api/v1/refresh" !in RegisteredPaths && "/api/v1/getUsername" !in RegisteredPaths
  {
  }
}

=== FILE: strconv.dfy ===
/** The parts of Go's integer semantics the request helpers depend on:
    64-bit wrap-around and `strconv.Atoi` / `strconv.Itoa` in base 10. */
module Strconv {
  import opened Common

  const MinInt64: int := -0x8000_0000_0000_0000
  const MaxInt64: int := 0x7FFF_FFFF_FFFF_FFFF

  predicate InInt64(n: int) {
    MinInt64 <= n <= MaxInt64
  }

  /** Two's-complement wrap-around of a mathematical integer into Go's `int`. */
  function Wrap64(n: int): (w: int)
    ensures InInt64(w)
    ensures (w - n) % 0x1_0000_0000_0000_0000 == 0
    ensures InInt64(n) ==> w == n
  {
    var m := n % 0x1_0000_0000_0000_0000;
    if m > MaxInt64 then m - 0x1_0000_0000_0000_0000 else m
  }

  predicate IsDigit(c: char) {
    '0' <= c <= '9'
  }

  predicate AllDigits(s: string) {
    forall i :: 0 <= i < |s| ==> IsDigit(s[i])
  }

  /** The value of a string of decimal digits, most significant first. */
  function DigitsValue(s: string): (n: nat)
    requires AllDigits(s)
    decreases |s|
  {
    if |s| == 0 then 0
    else DigitsValue(s[..|s| - 1]) * 10 + (s[|s| - 1] as int - '0' as int)
  }

  /** strconv.Atoi: an optional '+' or '-' followed by at least one decimal
      digit, whose value fits in a 64-bit `int`. Anything else is a syntax or
      range error. */
  function Atoi(s: string): (r: Result<int>)
    ensures r.Ok? ==> InInt64(r.value)
    ensures |s| == 0 ==> r.Err?
    ensures r.Ok? ==> IsDigit(s[0]) || s[0] == '+' || s[0] == '-'
    ensures r.Ok? ==> forall i :: 1 <= i < |s| ==> IsDigit(s[i])
    ensures r.Ok? ==> (r.value < 0 ==> s[0] == '-')
  {
    var neg := |s| > 0 && s[0] == '-';
    var body := if |s| > 0 && (s[0] == '-' || s[0] == '+') then s[1..] else s;
    if |body| == 0 || !AllDigits(body) then Err("invalid syntax")
    else
      var v: int := if neg then -(DigitsValue(body) as int) else DigitsValue(body);
      if InInt64(v) then Ok(v) else Err("value out of range")
  }

  /** The decimal digits of a natural number, without leading zeros. */
  function NatDigits(n: nat): (s: string)
    ensures |s| >= 1 && AllDigits(s)
    decreases n
  {
    if n < 10 then [('0' as int + n) as char]
    else NatDigits(n / 10) + [('0' as int + n % 10) as char]
  }

  /** strconv.Itoa: the decimal rendering of an int. */
  function Itoa(n: int): (s: string)
    ensures |s| >= 1
  {
    if n < 0 then "-" + NatDigits(-n) else NatDigits(n)
  }

  lemma {:induction false} NatDigitsValue(n: nat)
    ensures DigitsValue(NatDigits(n)) == n
    decreases n
  {
    var s := NatDigits(n);
    if n >= 10 {
      NatDigitsValue(n / 10);
      assert s[..|s| - 1] == NatDigits(n / 10);
    }
  }

  /** Atoi reads back what Itoa writes, for every value of a 64-bit int. */
  lemma AtoiItoa(n: int)
    requires InInt64(n)
    ensures Atoi(Itoa(n)) == Ok(n)
  {
    if n < 0 {
      var d := NatDigits(-n);
      assert ("-" + d)[1..] == d;
      NatDigitsValue(-n);
    } else {
      NatDigitsValue(n);
    }
  }

  /** Values outside 64 bits are range errors, not wrapped. */
  lemma AtoiRejectsOutOfRange(n: int)
    requires !InInt64(n)
    ensures Atoi(Itoa(n)).Err?
  {
    if n < 0 {
      var d := NatDigits(-n);
      assert ("-" + d)[1..] == d;
      NatDigitsValue(-n);
    } else {
      NatDigitsValue(n);
    }
  }
}

=== FILE: utils.dfy ===
/** Request helpers shared by the handlers: integer query parameters, the
    405 response, and pagination. */
module Utils {
  import opened Common
  import opened Strconv

  /** A URL query, reduced to the first value of each key (what `Get` reads). */
  type Query = map<string, string>

  /** `Query().Get(key)`: the empty string when the key is absent. */
  function QueryGet(q: Query, key: string): string {
    if key in q then q[key] else ""
  }

  /** parseQueryInt: a missing or empty parameter is an error of its own;
      otherwise the value is whatever `strconv.Atoi` makes of it. */
  function ParseQueryInt(q: Query, key: string): (r: Result<int>)
    ensures QueryGet(q, key) == "" ==> r == Err("missing parameter: " + key)
    ensures QueryGet(q, key) != "" ==> r == Atoi(q[key])
    ensures r.Ok? ==> key in q && InInt64(r.value)
  {
    var value := QueryGet(q, key);
    if value == "" then Err("missing parameter: " + key) else Atoi(value)
  }

  /** Any 64-bit value placed in the query as its decimal rendering comes back. */
  lemma ParseQueryIntRoundTrip(q: Query, key: string, n: int)
    requires InInt64(n)
    ensures ParseQueryInt(q[key := Itoa(n)], key) == Ok(n)
  {
    AtoiItoa(n);
  }

  const InvalidMethodPrefix := "Invalid method: "

  /** invalidMethod: 405, naming the method that was refused. */
  function InvalidMethod(verb: string): (r: Response)
    ensures r.ErrorResponse? && r.status == StatusMethodNotAllowed
    ensures |r.message| == |InvalidMethodPrefix| + |verb|
    ensures r.message[..|InvalidMethodPrefix|] == InvalidMethodPrefix
    ensures r.message[|InvalidMethodPrefix|..] == verb
  {
    ErrorResponse(StatusMethodNotAllowed, InvalidMethodPrefix + verb)
  }

  /** Two different refused methods get two different messages. */
  lemma InvalidMethodInjective(m1: string, m2: string)
    requires m1 != m2
    ensures InvalidMethod(m1) != InvalidMethod(m2)
  {
    assert InvalidMethod(m1).message[|InvalidMethodPrefix|..] == m1;
  }

  const PageSize := 20

  /** parsePage with the arithmetic it evidently means: pages below 1 read as
      page 1; every page is `PageSize` rows starting at `(page - 1) * PageSize`. */
  function ParsePage(page: int): (r: (int, int))
    ensures r.0 == PageSize
    ensures r.1 >= 0 && r.1 % PageSize == 0
    ensures page >= 1 ==> r.1 / PageSize == page - 1
    ensures page < 1 ==> r.1 == 0
  {
    var p := if page < 1 then 1 else page;
    (PageSize, (p - 1) * PageSize)
  }

  /** The rows a page covers, as the half-open interval [offset, offset+limit). */
  predicate OnPage(page: int, row: int) {
    var (limit, offset) := ParsePage(page);
    offset <= row < offset + limit
  }

  /** Consecutive pages meet without a gap or an overlap. */
  lemma ConsecutivePagesAdjacent(p: int)
    requires p >= 1
    ensures ParsePage(p).1 + ParsePage(p).0 == ParsePage(p + 1).1
    ensures forall row :: !(OnPage(p, row) && OnPage(p + 1, row))
  {
  }

  /** Every non-negative row lies on exactly one page of number 1 or more. */
  lemma EveryRowOnOnePage(row: int)
    requires row >= 0
    ensures OnPage(row / PageSize + 1, row)
    ensures forall p :: p >= 1 && OnPage(p, row) ==> p == row / PageSize + 1
  {
  }

  /** parsePage exactly as written: `(page - 1) * 20` in Go's 64-bit `int`. */
  function ParsePageAsWritten(page: int): (r: (int, int))
    requires InInt64(page)
    ensures r.0 == PageSize && InInt64(r.1)
    ensures (page - 1) * PageSize <= MaxInt64 ==> r == ParsePage(page)
  {
    var p := if page < 1 then 1 else page;
    (PageSize, Wrap64((p - 1) * PageSize))
  }

  /** The largest page number `Atoi` accepts wraps the offset to -40. */
  lemma ParsePageOverflow()
    ensures ParseQueryInt(map["page" := Itoa(MaxInt64)], "page") == Ok(MaxInt64)
    ensures ParsePageAsWritten(MaxInt64) == (PageSize, -40)
    ensures ParsePage(MaxInt64).1 > 0
  {
    AtoiItoa(MaxInt64);
  }
}
